=== FILE: README.md ===
# Finite state projection: enumeration, generator and marginals

A Dafny model of the finite state projection (FSP) core of `fsp.py`. This core computes the
probability distribution of a chemical reaction network (CRN) and its sensitivities to the
kinetic parameters. It has two parts.

- **`StateSpaceEnumeration`** (module `Enumeration`) numbers the states of the truncated
  lattice with the Cantor pairing function. `Phi` is `(x0+x1)(x0+x1+1)/2 + x1` in two
  dimensions, lifted to `n` dimensions by pairing `Phi` of the first `n-1` coordinates with the
  last one. `PhiInverse` finds the anti-diagonal `v` (the largest `v` with `v(v+1)/2 <= z`, given
  exactly through an integer square root) and recurses. The truncation keeps every state whose
  `Phi` lies in `lb..ub`, where `lb = Phi(0,…,0) = 0` and `ub = Phi(0,…,0,Cr)`. The class fills a
  bidirectional map `z -> PhiInverse(z)` over that range.
- **`SensitivitiesDerivation`** (modules `Generator`, `Marginalization`, `Sensitivities`) works
  with one rate matrix `B_i` per reaction. `B_i` holds the propensity at unit parameters, moved
  from each state to the index of the state the reaction leads to. Destinations outside the
  truncation are dropped, and the diagonal holds minus the propensity. From these it builds:
  - the generator `A = Σ params[i]·B_i`;
  - the block matrix `[[A, 0], [B_i, A]]` that drives a probability vector together with its
    sensitivity;
  - per-species marginals of given probability and sensitivity tables.

The state-changing parts are imperative Dafny:
- the enumeration's map field and its fill loop (`CreateBijection`);
- the dense `array2` that `CreateB` scatters triples into, with its diagonal then overwritten;
- the `array2`/`array3` accumulators of `Marginal`;
- the dictionary loop of `Marginals`.

The pure parts are functions:
- `Phi`, `PhiInverse`, `CreateA`, `ConstantMatrix`;
- the reference functions `BMatrix`, `Bucket` and `Marginal`, against which the methods are proved.

Propensities are function values `(params, state) -> real`. Matrices are dense `seq<seq<real>>`,
and arithmetic is exact over `real` and `nat`.

Module `Linear` holds the generic vector facts the proofs rest on. Module `Examples` instantiates
the controlled bursting-gene network of `CRN4_control/propensities_bursting_gene.py`.

Four facts about `fsp.py` worth stating:
- The truncated domain is not a box. It is `{x : Phi(x) <= ub}`; for two species this is
  `x0 + x1 <= Cr`.
- The marginals have `Cr + 1` buckets (fsp.py:248-249), not `Cr(Cr+3)/2 + 1` as a doc comment
  says.
- The doc comments at fsp.py:178, 205-206 and 236-237 give the length of the initial state, twice
  the state count, as `2(Cr+1)` for every dimension other than 2, so a state count of `Cr + 1`.
  That holds for one species only: `Enumeration.UbClosedForm` shows the count is `Cr(Cr+3)/2 + 1`
  for every dimension from 2 up, so the comments are wrong from 3 species on.
- No precondition (propensity sign, parameter count, table shapes) is checked at run time. The
  model states these as `requires`.

## Model

| member | source | states |
|---|---|---|
| Enumeration.Diagonal | fsp.py:62 | the anti-diagonal index `v` satisfies `v(v+1)/2 <= z < v(v+1)/2 + v + 1`, i.e. it is the largest `v` with `v(v+1)/2 <= z` |
| Enumeration.DiagonalUnique | fsp.py:62-64 | at most one `v` brackets `z` that way, so the index is determined |
| Enumeration.Pair | fsp.py:44 | the two-dimensional pairing `(a+b)(a+b+1)/2 + b`, computed exactly (the product of two consecutive numbers is even) |
| Enumeration.Unpair | fsp.py:62-64 | the two-dimensional inverse: with `v` the anti-diagonal of `z` and `x2 = z - v(v+1)/2`, it returns `(v - x2, x2)` |
| Enumeration.UnpairPair | fsp.py:44 | the two-dimensional inverse undoes the Cantor pairing: `Unpair(Pair(a, b)) == (a, b)` |
| Enumeration.PairUnpair | fsp.py:62-64 | pairing the two coordinates that the inverse returns gives back `z` |
| Enumeration.Phi | fsp.py:41-46 | one coordinate is itself, two are paired, and for `n >= 3` the value is the pairing of `Phi` of the first `n-1` coordinates with the last coordinate |
| Enumeration.PhiInverse | fsp.py:59-68 | returns `n` coordinates: `(z,)` for one dimension, `Unpair(z)` for two, and for more the inverse of the first half of `Unpair(z)` in `n-1` dimensions followed by its second half |
| Enumeration.PhiInverseOfPhi | fsp.py:41-68 | `PhiInverse(Phi(x, n), n) == x` for every `x` in ℕⁿ and every `n >= 1` |
| Enumeration.PhiOfPhiInverse | fsp.py:41-68 | `Phi(PhiInverse(z, n), n) == z` for every `z` and every `n >= 1` |
| Enumeration.PhiInverseInjective | fsp.py:59-68 | distinct indices have distinct states, so the stored values are pairwise distinct as a bidict requires |
| Enumeration.PhiDominatesCoordinates | fsp.py:41-46 | no coordinate exceeds `Phi(x, n)` |
| Enumeration.PairingExampleOrigin | fsp.py:44 | `Phi([0, 0], 2) = 0` |
| Enumeration.PairingExampleFirst | fsp.py:44 | `Phi([1, 0], 2) = 1` |
| Enumeration.PairingExampleSecond | fsp.py:44 | `Phi([0, 1], 2) = 2` |
| Enumeration.PairingExampleBoth | fsp.py:44 | `Phi([1, 1], 2) = 4` |
| Enumeration.PhiZero | fsp.py:22-25 | `lb = Phi(0,…,0) = 0` in every dimension |
| Enumeration.UbIsPairZero | fsp.py:23-26 | `ub = Phi(0,…,0,Cr)` is the pairing of 0 with `Cr` when `dim >= 2` |
| Enumeration.UbClosedForm | fsp.py:26-28 | `ub = Cr(Cr+3)/2` and `n_states = Cr(Cr+3)/2 + 1` for `dim >= 2`; `ub = Cr` and `n_states = Cr + 1` for `dim = 1` |
| Enumeration.PairBelowCorner | fsp.py:44-46 | `Pair(a, b) <= Pair(0, c)` exactly when `a + b <= c` |
| Enumeration.DomainCharacterization | fsp.py:24-28 | a state is kept exactly when `Phi` of its first `dim-1` coordinates plus its last coordinate is at most `Cr` |
| Enumeration.DomainTwoSpecies | fsp.py:24-28 | for two species the kept states are exactly those with `x0 + x1 <= Cr` |
| Enumeration.DomainCoordinatesBounded | fsp.py:248-253 | every coordinate of a kept state lies in `0..Cr`, so it indexes one of the `Cr + 1` buckets |
| Enumeration.EnumeratedStateInDomain | fsp.py:75-76 | `PhiInverse(z)` is a kept state exactly when `z < n_states` |
| Enumeration.EnumerationInjective | fsp.py:73-76 | the map `z -> PhiInverse(z)` over `0..m-1` never binds one state to two keys |
| Enumeration.EnumerationSize | fsp.py:96-97 | the map over `0..m-1` has exactly `m` keys and `m` distinct values, so `len(entries) == n_states` |
| Enumeration.EnumerationIsDomain | fsp.py:73-76 | the stored states are exactly the kept states (both directions) |
| Enumeration.Inverse | fsp.py:108 | the inverse map has the stored states as keys and sends each back to its index |
| Enumeration.GetIndex | fsp.py:118 | `d[key] if key in d else -1` |
| Enumeration.IndexOf | fsp.py:118-119 | the reference index of a vector: `Phi` of it when every coordinate is non-negative and `Phi <= ub`, and -1 otherwise |
| Enumeration.IndexOfFindsState | fsp.py:118-119 | the index lookup returns -1 or an index below `n_states`, and returns `z` exactly when `PhiInverse(z)` is the state looked up |
| Enumeration.IndexOfEnumerated | fsp.py:117 | looking up the state stored at `z` returns `z` |
| Enumeration.GetIndexIsIndexOf | fsp.py:118-119 | `d[key] if key in d else -1` on the inverse bidict is the index lookup, including -1 for negative or out-of-domain states |
| Enumeration.PartialEnumerationPut | fsp.py:73-76 | binding `z -> PhiInverse(z)` never clashes with another key's value and keeps every entry of the form `k -> PhiInverse(k)` with `k <= ub` |
| Enumeration.PartialEnumerationComplete | fsp.py:75-76 | such a map holding every key `0..ub` is the whole enumeration |
| Enumeration.StateSpaceEnumeration.constructor | fsp.py:18-28 | `cl = (0,…,0)`, `cr = (0,…,0,Cr)`, `lb = Phi(cl)`, `ub = Phi(cr)`, `n_states = ub - lb + 1 = NStates(Cr, dim)`, and the map is empty |
| Enumeration.StateSpaceEnumeration.Put | fsp.py:73-76 | `bijection[z] = x` rebinds key `z` and is allowed only when no other key holds `x` |
| Enumeration.StateSpaceEnumeration.CreateBijection | fsp.py:70-76 | after the loop the map is exactly `z -> PhiInverse(z)` for `z` in `lb..ub`, and the object invariant holds |
| Generator.BEntry | fsp.py:113-130 | entry `(r, c)` of `B_i`: minus the rate of state `c` at unit parameters on the diagonal (written last by `setdiag`, so it wins), the rate at the row of the kept destination of `c`, and 0 elsewhere |
| Generator.BMatrix | fsp.py:113-130 | the `n_states × n_states` matrix of those entries |
| Generator.BColumnSum | fsp.py:120-129 | column `c` of `B_i` sums to 0 when the destination is another kept state, and to minus the rate when the destination is dropped or is `c` itself (the diagonal is written last) |
| Generator.CreateA | fsp.py:144-146 | the `n_states × n_states` matrix with `A[r][c] = Σ_i params[i]·B_i[r][c]`, summed in reaction order; it needs at least one reaction |
| Generator.ALinearInParams | fsp.py:144-146 | moving `params[j]` by `h` moves every entry of `A` by `h·B_j`, so `∂A/∂θ_j = B_j` |
| Generator.EntryColumnSums | fsp.py:120-129 | for each reaction, the column sum of its entries at source state `c` is minus the rate that the truncation discards |
| Generator.AColumnSum | fsp.py:144-146 | column `c` of `A` sums to minus the parameter-weighted discarded rate, and to 0 when every reaction keeps state `c` inside the truncation |
| Generator.ASubGenerator | fsp.py:144-146 | with non-negative rates and parameters, the off-diagonal entries of `A` are non-negative and every column sums to at most 0 |
| Generator.ConstantMatrix | fsp.py:158-163 | `C` is `2n × 2n`, with `A` top-left, zeros top-right, `B_index` bottom-left and `A` bottom-right |
| Generator.ConstantMatrixProduct | fsp.py:189-191 | for `x = p ++ S`, the top half of `C·x` is `A·p` whatever `S` is, and the bottom half is `B_index·p + A·S` |
| Marginalization.States | fsp.py:251 | the stored states in key order: `n_states` of them, state `z` being `PhiInverse(z)` |
| Marginalization.StatesBounded | fsp.py:248-253 | no stored state holds more than `Cr` copies of any species |
| Marginalization.Bucket | fsp.py:251-254 | the sum of `p[z]` over the first `m` states whose count of species `ind` is `k`; adding state `m-1` adds its mass to its own bucket only |
| Marginalization.Marginal | fsp.py:248-254 | the vector of buckets `0..width-1` of the whole vector `p` |
| Marginalization.MarginalMass | fsp.py:248-255 | when every count has a bucket, the buckets add up to the total mass of the vector |
| Marginalization.MarginalNonNegative | fsp.py:253 | the marginal of a non-negative vector is non-negative |
| Marginalization.MarginalOfPointMass | fsp.py:251-253 | the marginal of the distribution concentrated on state `z` is concentrated on that state's count |
| Marginalization.BucketAdd | fsp.py:253-254 | a bucket of `p + q` is the bucket of `p` plus the bucket of `q` |
| Marginalization.BucketScale | fsp.py:253-254 | a bucket of `a·q` is `a` times the bucket of `q` |
| Marginalization.MarginalLinear | fsp.py:253-254 | marginalizing is linear, so the marginal of a sensitivity is the sensitivity of the marginal |
| Sensitivities.MaskedSumIdentity | fsp.py:117-121 | since every entry's row is its own index, `data[rows == i].sum()` is `data[i]` |
| Sensitivities.AddToSlice | fsp.py:254 | `a[t, k, :] += v` adds `v` to that slice and leaves every other entry unchanged |
| Sensitivities.Scatter | fsp.py:122-128 | the masked coordinate matrix holds `data[c]` at `(columns[c], c)` for every kept column and 0 elsewhere |
| Sensitivities.SetDiag | fsp.py:129 | the diagonal is overwritten by `diags` and nothing else changes |
| Sensitivities.Assemble | fsp.py:122-129 | the finished array holds `diags` on the diagonal, the kept triples off it, and 0 elsewhere |
| Sensitivities.Outputs | fsp.py:113 | one output state per stored state: the state shifted by the reaction's change vector, possibly with negative counts |
| Sensitivities.Propensities | fsp.py:115 | one rate per stored state: the propensity at that state with every parameter set to 1 |
| Sensitivities.Lookup | fsp.py:118-119 | one column per output state: its index in the inverse bidict, or -1 when it is not stored |
| Sensitivities.MaskedSum | fsp.py:120 | the sum of the `data` entries whose row equals `i`, as `data[rows==i].sum()` |
| Sensitivities.NegatedRowSums | fsp.py:120-121 | one diagonal value per state `i < n`: minus the sum of the rates whose row is `i` |
| Sensitivities.TriplesOfB | fsp.py:108-121 | the `rows`, `columns`, `data` and `diags` computed from the enumeration describe `B_index` exactly |
| Sensitivities.AddState | fsp.py:252-254 | one pass over the time samples adds `probs[t][z]` to bucket `x` and `s[t][z]` to slice `x` at every `t`, and changes nothing else |
| Sensitivities.MarginalTablesMass | fsp.py:248-255 | at every time sample the probability buckets add up to the total probability, and the buckets of each sensitivity column to that column's total |
| Sensitivities.FoldState | fsp.py:251-254 | folding state `z` into the accumulators turns the buckets of the first `z` states into those of the first `z + 1` |
| Sensitivities.SensitivitiesDerivation.constructor | fsp.py:88-97 | the counts are copied from the CRN, the enumeration is built and complete, and `n_states = len(entries) = NStates(Cr, n_species)` |
| Sensitivities.SensitivitiesDerivation.CreateB | fsp.py:99-131 | returns a fresh `n_states × n_states` array whose every entry equals `BMatrix(crn, Cr, index)` |
| Sensitivities.SensitivitiesDerivation.Marginal | fsp.py:224-255 | returns fresh arrays holding, at every time sample, the marginal of `probs[t]` and of every sensitivity column of `s[t]` over counts `0..Cr` |
| Sensitivities.SensitivitiesDerivation.Marginals | fsp.py:257-277 | the dictionaries have exactly the requested species as keys, and each value holds that species' marginals |
| Examples.ControlNetwork | CRN4_control/propensities_bursting_gene.py:3-21 | the controlled bursting-gene network is well formed, with 2 species, 4 reactions and 4 parameters |
| Examples.ControlRateNegative | CRN4_control/propensities_bursting_gene.py:5 | every kept state with `x0 >= 2` has rate `1 - x0 < 0` for R1, so the network never meets the non-negativity assumption once `Cr >= 2` |

## Left out

- `solve_ode` and `get_sensitivities` (fsp.py:165-221) are left out: the ODE integration runs in floating point through `solve_ivp`. `Marginal` and `Marginals` take the tables `probs` (time × state) and `s` (time × state × parameter) as inputs instead of an initial state and time samples.
- Floating point is not modelled. The `sqrt`/`floor` of `phi_inverse` is the exact integer square root. The `/ 2` of `phi` is exact division of an even number. All matrix arithmetic is over `real`.
- The scipy sparse formats (`coo_matrix`, `hstack`/`vstack`, `csr_matrix`, `eliminate_zeros`) are modelled as dense matrices with the same entries. Removing stored zeros does not change any entry.
- `bidict` is modelled as a `map` plus an inverse map. Insertion order is not kept.
- Both `create_B` and the `marginal` loop walk the bidict in insertion order `lb, ub, 1, …, ub-1`; the model walks the keys in increasing order. In `create_B` each triple is placed by its key, not its position. In `marginal` the order only changes the order of real additions, which commute here.
- `Sensitivities.Scatter` requires each entry's row to be its own index. That holds only for the key-order walk above.
- `Generator.ConstantMatrix`: `create_B(index)` raises for `index >= n_reactions`. A negative index wraps around through Python indexing (fsp.py:110-111) and picks reaction `n_reactions + index`; the `nat`-typed index does not represent that. The same holds for `Sensitivities.SensitivitiesDerivation.CreateB`.
- `Sensitivities.SensitivitiesDerivation.Marginal`: a negative `ind_species` wraps around in `state[ind_species]` (fsp.py:253) and picks species `n_species + ind_species`; the `nat`-typed `indSpecies` does not represent that. An `ind_species >= n_species` raises `IndexError` at `state[ind_species]` (fsp.py:253); the requires `indSpecies < nSpecies` excludes it and the model does not represent the error. The same holds for `Sensitivities.SensitivitiesDerivation.Marginals`.
- `Generator.CreateA` requires at least one reaction. With no reactions the source raises, because `np.vectorize` refuses the empty input `np.arange(0)` (fsp.py:144-145); the model does not represent that error.
- `Enumeration.StateSpaceEnumeration.constructor` requires `dim >= 1`, and `Generator.WellFormed` requires at least one species. With `dim = 0` the source raises at `self.cr[-1] = cr` (fsp.py:24); the model does not represent that error.
- `Generator.CreateA` requires `len(params) == n_reactions`, as the source assumes when it multiplies the array of `B_i` by `params`.
- `Sensitivities.SensitivitiesDerivation.Marginal` requires the sensitivity table to have one column per entry of `params`. The source takes `len(params)` columns for the accumulator and reads `s[i, n, :]` from a table with one column per reaction, so it assumes the two counts agree.
- `Sensitivities.SensitivitiesDerivation.Marginals` passes the same tables for every species. The source re-integrates the ODE for each species, with identical inputs and so identical tables.
- The probability table the source returns is the one from the last reaction's integration (fsp.py:220). Since the tables are inputs here, this is not modelled.
- Propensities are arbitrary functions. Their non-negativity, assumed but never checked by the source, is the precondition `NonNegative` of `Generator.ASubGenerator` and is not required elsewhere.
- The CRN class of `simulation` is not part of this model. A CRN is the record `Crn` with the stoichiometry as one change vector per reaction (the columns of `stoichiometric_mat`).
- The fixture `CRN4_bursting_gene/propensities_bursting_gene.py` is left out: it is data, and only the controlled variant is transcribed. In the `Examples` transcription, a propensity applied to a state or parameter vector too short for it returns 0; the source would raise.
- `projected_gradient_descent.py`, `neuralnetwork_poisson.py` and `training.py` are outside this core: they are floating-point optimisation and learning code with file I/O.

=== FILE: Enumeration.dfy ===
/** State-space enumeration for the finite state projection: the Cantor
    pairing Φ of N^n onto N, its inverse, the truncated domain it induces, and
    the object that stores the bijection between 0..ub and that domain. */
module Enumeration {

  /** v(v+1)/2: the number of points of N x N on the anti-diagonals 0..v-1. */
  function Tri(v: nat): nat
  {
    v * (v + 1) / 2
  }

  lemma TriDouble(v: nat)
    ensures 2 * Tri(v) == v * (v + 1)
  {
    var p := v * (v + 1);
    var t: int;
    if v % 2 == 0 {
      var q := v / 2;
      t := q * (v + 1);
      calc { p; == (2 * q) * (v + 1); == 2 * t; }
    } else {
      var q := (v + 1) / 2;
      t := v * q;
      calc { p; == v * (2 * q); == 2 * t; }
    }
    assert p / 2 == t;
  }

  lemma TriStep(v: nat)
    ensures Tri(v + 1) == Tri(v) + v + 1
  {
    TriDouble(v);
    TriDouble(v + 1);
    assert (v + 1) * (v + 2) == v * (v + 1) + 2 * (v + 1);
  }

  lemma {:induction false} TriMonotone(v: nat, w: nat)
    requires v <= w
    ensures Tri(v) <= Tri(w)
    decreases w - v
  {
    if v < w {
      TriStep(v);
      TriMonotone(v + 1, w);
    }
  }

  lemma TriAtLeast(v: nat)
    ensures v <= Tri(v)
  {
    if v > 0 {
      TriStep(v - 1);
    }
  }

  /** The integer square root: the largest r with r*r <= m. */
  function Isqrt(m: nat): (r: nat)
    ensures r * r <= m < (r + 1) * (r + 1)
  {
    if m == 0 then 0
    else
      var s := Isqrt(m - 1);
      if (s + 1) * (s + 1) <= m then s + 1 else s
  }

  lemma DiagonalBounds(z: nat, r: nat)
    requires r * r <= 8 * z + 1 < (r + 1) * (r + 1)
    ensures r >= 1
    ensures Tri((r - 1) / 2) <= z < Tri((r - 1) / 2) + (r - 1) / 2 + 1
  {
    var v := (r - 1) / 2;
    TriDouble(v);
    if r % 2 == 1 {
      assert r == 2 * v + 1;
      assert 4 * (v * (v + 1)) + 1 == r * r;
      assert (r + 1) * (r + 1) <= 4 * (v * (v + 1)) + 8 * (v + 1) + 1;
    } else {
      assert r == 2 * v + 2;
      assert 4 * (v * (v + 1)) + 1 <= r * r;
      assert (r + 1) * (r + 1) == 4 * (v * (v + 1)) + 8 * (v + 1) + 1;
    }
  }

  /** The anti-diagonal holding z: the largest v with v(v+1)/2 <= z, computed
      as floor((sqrt(8z+1) - 1) / 2) with an exact square root. */
  function Diagonal(z: nat): (v: nat)
    ensures Tri(v) <= z < Tri(v) + v + 1
  {
    var r := Isqrt(8 * z + 1);
    DiagonalBounds(z, r);
    (r - 1) / 2
  }

  lemma DiagonalUnique(z: nat, v: nat, w: nat)
    requires Tri(v) <= z < Tri(v) + v + 1
    requires Tri(w) <= z < Tri(w) + w + 1
    ensures v == w
  {
    if v < w {
      TriStep(v);
      TriMonotone(v + 1, w);
    } else if w < v {
      TriStep(w);
      TriMonotone(w + 1, v);
    }
  }

  /** The two-dimensional pairing (a+b)(a+b+1)/2 + b. */
  function Pair(a: nat, b: nat): nat
  {
    Tri(a + b) + b
  }

  /** The inverse of Pair: the diagonal v of z and the offset of z on it. */
  function Unpair(z: nat): (nat, nat)
  {
    var v := Diagonal(z);
    var x2 := z - Tri(v);
    (v - x2, x2)
  }

  lemma UnpairPair(a: nat, b: nat)
    ensures Unpair(Pair(a, b)) == (a, b)
  {
    var z := Pair(a, b);
    TriStep(a + b);
    DiagonalUnique(z, Diagonal(z), a + b);
  }

  lemma PairUnpair(z: nat)
    ensures Pair(Unpair(z).0, Unpair(z).1) == z
  {
  }

  lemma PairAtLeastSum(a: nat, b: nat)
    ensures a + b <= Pair(a, b)
  {
    TriAtLeast(a + b);
  }

  /** A pair lies at or before (0, c) exactly when its coordinates sum to at most c. */
  lemma PairBelowCorner(a: nat, b: nat, c: nat)
    ensures Pair(a, b) <= Pair(0, c) <==> a + b <= c
  {
    if a + b <= c {
      TriMonotone(a + b, c);
    } else {
      TriStep(c);
      TriMonotone(c + 1, a + b);
    }
  }

  /** Φ_n: N^n -> N. One coordinate is itself; two are paired; more are
      paired as (Φ_{n-1} of all but the last, the last). */
  function Phi(x: seq<nat>, n: nat): nat
    requires 1 <= n == |x|
    decreases n
  {
    if n < 2 then x[0]
    else if n == 2 then Pair(x[0], x[1])
    else Pair(Phi(x[..n - 1], n - 1), x[n - 1])
  }

  /** Φ_n^{-1}: N -> N^n, undoing the outer pairing and recursing on its first half. */
  function PhiInverse(z: nat, n: nat): (x: seq<nat>)
    requires n >= 1
    ensures |x| == n
    decreases n
  {
    if n < 2 then [z]
    else if n == 2 then [Unpair(z).0, Unpair(z).1]
    else PhiInverse(Unpair(z).0, n - 1) + [Unpair(z).1]
  }

  /** For n >= 2 every Φ_n is the pairing of Φ_{n-1} of the prefix with the last coordinate. */
  lemma PhiSplit(x: seq<nat>, n: nat)
    requires 2 <= n == |x|
    ensures Phi(x, n) == Pair(Phi(x[..n - 1], n - 1), x[n - 1])
  {
  }

  lemma {:induction false} PhiInverseOfPhi(x: seq<nat>, n: nat)
    requires 1 <= n == |x|
    ensures PhiInverse(Phi(x, n), n) == x
    decreases n
  {
    if n == 2 {
      UnpairPair(x[0], x[1]);
    } else if n > 2 {
      UnpairPair(Phi(x[..n - 1], n - 1), x[n - 1]);
      PhiInverseOfPhi(x[..n - 1], n - 1);
      assert x[..n - 1] + [x[n - 1]] == x;
    }
  }

  lemma {:induction false} PhiOfPhiInverse(z: nat, n: nat)
    requires n >= 1
    ensures Phi(PhiInverse(z, n), n) == z
    decreases n
  {
    if n == 2 {
      PairUnpair(z);
    } else if n > 2 {
      var y := PhiInverse(z, n);
      assert y[..n - 1] == PhiInverse(Unpair(z).0, n - 1);
      PhiOfPhiInverse(Unpair(z).0, n - 1);
      PairUnpair(z);
    }
  }

  lemma PhiInverseInjective(z1: nat, z2: nat, n: nat)
    requires n >= 1
    requires PhiInverse(z1, n) == PhiInverse(z2, n)
    ensures z1 == z2
  {
    PhiOfPhiInverse(z1, n);
    PhiOfPhiInverse(z2, n);
  }

  /** Every coordinate of x is at most Φ(x). */
  lemma {:induction false} PhiDominatesCoordinates(x: seq<nat>, n: nat)
    requires 1 <= n == |x|
    ensures forall i :: 0 <= i < n ==> x[i] <= Phi(x, n)
    decreases n
  {
    if n == 2 {
      PairAtLeastSum(x[0], x[1]);
    } else if n > 2 {
      var p := x[..n - 1];
      PairAtLeastSum(Phi(p, n - 1), x[n - 1]);
      PhiDominatesCoordinates(p, n - 1);
      assert forall i :: 0 <= i < n - 1 ==> x[i] == p[i];
    }
  }

  function ZeroState(n: nat): (x: seq<nat>)
    ensures |x| == n
  {
    seq(n, _ => 0)
  }

  /** The corner (0, ..., 0, c) of the truncation. */
  function Corner(c: nat, n: nat): (x: seq<nat>)
    requires n >= 1
    ensures |x| == n
  {
    ZeroState(n - 1) + [c]
  }

  /** The lower enumeration bound lb = Φ(0, ..., 0) is 0. */
  lemma {:induction false} PhiZero(n: nat)
    requires n >= 1
    ensures Phi(ZeroState(n), n) == 0
    decreases n
  {
    if n > 2 {
      assert ZeroState(n)[..n - 1] == ZeroState(n - 1);
      PhiZero(n - 1);
    }
  }

  /** ub = Φ(0, ..., 0, Cr): the last index of the truncated space. */
  function Ub(cr: nat, dim: nat): nat
    requires dim >= 1
  {
    Phi(Corner(cr, dim), dim)
  }

  /** Number of enumerated states, ub - lb + 1 with lb = 0. */
  function NStates(cr: nat, dim: nat): nat
    requires dim >= 1
  {
    Ub(cr, dim) + 1
  }

  lemma UbIsPairZero(cr: nat, dim: nat)
    requires dim >= 2
    ensures Ub(cr, dim) == Pair(0, cr)
  {
    var c := Corner(cr, dim);
    if dim > 2 {
      assert c[..dim - 1] == ZeroState(dim - 1);
      PhiZero(dim - 1);
    }
  }

  /** ub is Cr for one species and Cr(Cr+3)/2 for two or more. */
  lemma UbClosedForm(cr: nat, dim: nat)
    requires dim >= 1
    ensures Ub(cr, dim) == if dim == 1 then cr else cr * (cr + 3) / 2
    ensures NStates(cr, dim) == if dim == 1 then cr + 1 else cr * (cr + 3) / 2 + 1
  {
    if dim >= 2 {
      UbIsPairZero(cr, dim);
      TriDouble(cr);
      assert cr * (cr + 3) == 2 * (Tri(cr) + cr);
    }
  }

  /** Four values of the two-dimensional pairing, one lemma each:
      Φ(0,0) = 0, Φ(1,0) = 1, Φ(0,1) = 2, Φ(1,1) = 4. */
  lemma PairingExampleOrigin()
    ensures Phi([0, 0], 2) == 0
  {
  }

  lemma PairingExampleFirst()
    ensures Phi([1, 0], 2) == 1
  {
  }

  lemma PairingExampleSecond()
    ensures Phi([0, 1], 2) == 2
  {
  }

  lemma PairingExampleBoth()
    ensures Phi([1, 1], 2) == 4
  {
  }

  /** The truncated domain: the states of N^dim whose Φ is at most ub. */
  predicate InDomain(x: seq<nat>, cr: nat, dim: nat)
    requires dim >= 1
  {
    |x| == dim && Phi(x, dim) <= Ub(cr, dim)
  }

  /** For two or more species, x is in the domain exactly when Φ of all but its last
      coordinate plus its last coordinate is at most Cr. */
  lemma DomainCharacterization(x: seq<nat>, cr: nat, dim: nat)
    requires 2 <= dim == |x|
    ensures InDomain(x, cr, dim) <==> Phi(x[..dim - 1], dim - 1) + x[dim - 1] <= cr
  {
    UbIsPairZero(cr, dim);
    PhiSplit(x, dim);
    PairBelowCorner(Phi(x[..dim - 1], dim - 1), x[dim - 1], cr);
  }

  /** For two species the domain is the triangle x0 + x1 <= Cr, not a box. */
  lemma DomainTwoSpecies(x: seq<nat>, cr: nat)
    requires |x| == 2
    ensures InDomain(x, cr, 2) <==> x[0] + x[1] <= cr
  {
    DomainCharacterization(x, cr, 2);
  }

  /** Every coordinate of a state in the domain lies in 0..Cr. */
  lemma DomainCoordinatesBounded(x: seq<nat>, cr: nat, dim: nat)
    requires dim >= 1 && InDomain(x, cr, dim)
    ensures forall i :: 0 <= i < dim ==> x[i] <= cr
  {
    if dim == 1 {
      UbClosedForm(cr, dim);
    } else {
      DomainCharacterization(x, cr, dim);
      var p := x[..dim - 1];
      PhiDominatesCoordinates(p, dim - 1);
      assert forall i :: 0 <= i < dim - 1 ==> x[i] == p[i];
    }
  }

  /** z indexes a state of the domain exactly when z < n_states, and that state has Φ = z. */
  lemma EnumeratedStateInDomain(z: nat, cr: nat, dim: nat)
    requires dim >= 1
    ensures InDomain(PhiInverse(z, dim), cr, dim) <==> z < NStates(cr, dim)
  {
    PhiOfPhiInverse(z, dim);
  }

  /** The bijection 0..m-1 -> states as a map. */
  function EnumerationUpTo(dim: nat, m: nat): map<nat, seq<nat>>
    requires dim >= 1
  {
    map z: nat | z < m :: PhiInverse(z, dim)
  }

  /** The full bijection for truncation Cr: keys lb..ub. */
  function Bijection(cr: nat, dim: nat): map<nat, seq<nat>>
    requires dim >= 1
  {
    EnumerationUpTo(dim, NStates(cr, dim))
  }

  /** No two keys share a value (what a bidict demands). */
  predicate Injective(m: map<nat, seq<nat>>)
  {
    forall k1, k2 :: k1 in m && k2 in m && k1 != k2 ==> m[k1] != m[k2]
  }

  lemma EnumerationInjective(dim: nat, m: nat)
    requires dim >= 1
    ensures Injective(EnumerationUpTo(dim, m))
  {
    var e := EnumerationUpTo(dim, m);
    forall k1, k2 | k1 in e && k2 in e && e[k1] == e[k2]
      ensures k1 == k2
    {
      PhiInverseInjective(k1, k2, dim);
    }
  }

  /** The state added at step m - 1 is new. */
  lemma EnumerationFresh(dim: nat, m: nat)
    requires dim >= 1 && m > 0
    ensures PhiInverse(m - 1, dim) !in EnumerationUpTo(dim, m - 1).Values
  {
    var e, x := EnumerationUpTo(dim, m - 1), PhiInverse(m - 1, dim);
    forall k | k in e
      ensures e[k] != x
    {
      if e[k] == x {
        PhiInverseInjective(k, m - 1, dim);
      }
    }
  }

  /** Step m - 1 adds one key and one value. */
  lemma EnumerationGrows(dim: nat, m: nat)
    requires dim >= 1 && m > 0
    ensures EnumerationUpTo(dim, m).Keys == EnumerationUpTo(dim, m - 1).Keys + {m - 1}
    ensures EnumerationUpTo(dim, m).Values == EnumerationUpTo(dim, m - 1).Values + {PhiInverse(m - 1, dim)}
  {
    var e, e' := EnumerationUpTo(dim, m - 1), EnumerationUpTo(dim, m);
    var x := PhiInverse(m - 1, dim);
    forall y | y in e'.Values
      ensures y in e.Values + {x}
    {
      var k :| k in e' && e'[k] == y;
      if k < m - 1 {
        assert e[k] == y;
      }
    }
    forall y | y in e.Values
      ensures y in e'.Values
    {
      var k :| k in e && e[k] == y;
      assert e'[k] == y;
    }
    assert e'[m - 1] == x;
  }

  /** The enumeration has exactly m keys and m distinct values. */
  lemma EnumerationSize(dim: nat, m: nat)
    requires dim >= 1
    ensures |EnumerationUpTo(dim, m).Keys| == m
    ensures |EnumerationUpTo(dim, m).Values| == m
  {
    EnumerationKeys(dim, m);
    EnumerationValues(dim, m);
  }

  lemma EnumerationKeys(dim: nat, m: nat)
    requires dim >= 1
    ensures |EnumerationUpTo(dim, m).Keys| == m
  {
    assert EnumerationUpTo(dim, m).Keys == Below(m);
  }

  /** The keys 0, ..., m - 1, one more at each step. */
  function Below(m: nat): (b: set<nat>)
    ensures forall z: int :: z in b <==> 0 <= z < m
    ensures |b| == m
  {
    if m == 0 then {} else Below(m - 1) + {m - 1}
  }

  lemma {:induction false} EnumerationValues(dim: nat, m: nat)
    requires dim >= 1
    ensures |EnumerationUpTo(dim, m).Values| == m
  {
    if m > 0 {
      EnumerationValues(dim, m - 1);
      EnumerationFresh(dim, m);
      EnumerationGrows(dim, m);
      GrowByOne(EnumerationUpTo(dim, m - 1).Values, PhiInverse(m - 1, dim));
    }
  }

  lemma GrowByOne<T>(s: set<T>, x: T)
    requires x !in s
    ensures |s + {x}| == |s| + 1
  {
  }

  /** The enumerated states are exactly the domain. */
  lemma EnumerationIsDomain(x: seq<nat>, cr: nat, dim: nat)
    requires dim >= 1
    ensures x in Bijection(cr, dim).Values <==> InDomain(x, cr, dim)
  {
    var e := Bijection(cr, dim);
    if x in e.Values {
      var z :| z in e && e[z] == x;
      EnumeratedStateInDomain(z, cr, dim);
    }
    if InDomain(x, cr, dim) {
      PhiInverseOfPhi(x, dim);
      assert e[Phi(x, dim)] == x;
    }
  }

  /** The inverse direction of a bidict: value -> key. */
  function Inverse(m: map<nat, seq<nat>>): (d: map<seq<nat>, nat>)
    requires Injective(m)
    ensures d.Keys == m.Values
    ensures forall k :: k in m ==> d[m[k]] == k
  {
    map k | k in m :: m[k] := k
  }

  /** A dictionary lookup that answers -1 for a missing key. */
  function GetIndex(d: map<seq<nat>, nat>, key: seq<int>): int
  {
    if key in d then d[key] else -1
  }

  /** Reference definition of the index of a state: Φ(y) when y is a state of the
      domain, -1 when a coordinate is negative or Φ(y) > ub. */
  function IndexOf(y: seq<int>, cr: nat, dim: nat): int
    requires dim >= 1
  {
    if |y| == dim && forall i :: 0 <= i < |y| ==> y[i] >= 0 then
      var x: seq<nat> := seq(|y|, i requires 0 <= i < |y| && y[i] >= 0 => y[i] as nat);
      if Phi(x, dim) <= Ub(cr, dim) then Phi(x, dim) else -1
    else -1
  }

  /** IndexOf finds exactly the position of y in the enumeration, and answers -1
      exactly when y is not enumerated. */
  lemma IndexOfFindsState(y: seq<int>, cr: nat, dim: nat)
    requires dim >= 1
    ensures -1 <= IndexOf(y, cr, dim) < NStates(cr, dim)
    ensures forall z :: 0 <= z < NStates(cr, dim) ==> (IndexOf(y, cr, dim) == z <==> PhiInverse(z, dim) == y)
  {
    var k := IndexOf(y, cr, dim);
    if k >= 0 {
      var x: seq<nat> := seq(|y|, i requires 0 <= i < |y| && y[i] >= 0 => y[i] as nat);
      assert x == y;
      PhiInverseOfPhi(x, dim);
      forall z | 0 <= z < NStates(cr, dim) && PhiInverse(z, dim) == y
        ensures z == k
      {
        PhiInverseInjective(z, k, dim);
      }
    } else {
      forall z | 0 <= z < NStates(cr, dim)
        ensures PhiInverse(z, dim) != y
      {
        IndexOfEnumerated(z, cr, dim);
      }
    }
  }

  /** The index of the z-th enumerated state is z. */
  lemma IndexOfEnumerated(z: nat, cr: nat, dim: nat)
    requires dim >= 1 && z < NStates(cr, dim)
    ensures IndexOf(PhiInverse(z, dim), cr, dim) == z
  {
    var x := PhiInverse(z, dim);
    assert seq(|x|, i requires 0 <= i < |x| && x[i] >= 0 => x[i] as nat) == x;
    PhiOfPhiInverse(z, dim);
  }

  /** Looking a destination up in the inverse of the stored bijection is IndexOf. */
  lemma GetIndexIsIndexOf(y: seq<int>, cr: nat, dim: nat)
    requires dim >= 1
    requires Injective(Bijection(cr, dim))
    ensures GetIndex(Inverse(Bijection(cr, dim)), y) == IndexOf(y, cr, dim)
  {
    var e := Bijection(cr, dim);
    var d := Inverse(e);
    IndexOfFindsState(y, cr, dim);
    var k := IndexOf(y, cr, dim);
    if k >= 0 {
      assert e[k] == y;
      assert d[e[k]] == k;
    } else {
      forall z | z in e
        ensures e[z] != y
      {
        IndexOfEnumerated(z, cr, dim);
      }
      assert y !in e.Values;
    }
  }

  /** Every entry of m is z -> Φ^{-1}(z) for some z <= ub. */
  ghost predicate PartialEnumeration(m: map<nat, seq<nat>>, dim: nat, ub: nat)
    requires dim >= 1
  {
    forall k :: k in m ==> k <= ub && m[k] == PhiInverse(k, dim)
  }

  /** Binding z -> Φ^{-1}(z) never clashes with another key's value, and keeps
      the map a partial enumeration. */
  lemma PartialEnumerationPut(m: map<nat, seq<nat>>, z: nat, dim: nat, ub: nat)
    requires dim >= 1 && z <= ub
    requires PartialEnumeration(m, dim, ub)
    ensures forall k :: k in m && k != z ==> m[k] != PhiInverse(z, dim)
    ensures PartialEnumeration(m[z := PhiInverse(z, dim)], dim, ub)
  {
    forall k | k in m && k != z
      ensures m[k] != PhiInverse(z, dim)
    {
      if m[k] == PhiInverse(z, dim) {
        PhiInverseInjective(k, z, dim);
      }
    }
  }

  /** A partial enumeration holding every key 0..ub is the whole enumeration. */
  lemma PartialEnumerationComplete(m: map<nat, seq<nat>>, dim: nat, ub: nat)
    requires dim >= 1
    requires PartialEnumeration(m, dim, ub)
    requires forall k :: 0 <= k <= ub ==> k in m
    ensures m == EnumerationUpTo(dim, ub + 1)
  {
    assert m.Keys == EnumerationUpTo(dim, ub + 1).Keys;
  }

  /** The enumerator of the truncated state space. `bijection` is filled once
      by CreateBijection and maps every z in lb..ub to Φ^{-1}(z). */
  class StateSpaceEnumeration {
    const dim: nat
    const cl: seq<nat>
    const cr: seq<nat>
    const lb: nat
    const ub: nat
    const nStates: nat
    var bijection: map<nat, seq<nat>>

    /** The corners are (0,...,0) and (0,...,0,Cr), the bounds are their Φ
        (so lb = 0), and every stored entry is z -> Φ^{-1}(z) with z in lb..ub. */
    ghost predicate Valid()
      reads this
    {
      && dim >= 1
      && cl == ZeroState(dim) && PhiInverse(lb, dim) == cl
      && |cr| == dim && cr == Corner(cr[dim - 1], dim) && PhiInverse(ub, dim) == cr
      && lb == 0 && ub == Ub(cr[dim - 1], dim)
      && nStates == ub - lb + 1
      && PartialEnumeration(bijection, dim, ub)
    }

    constructor (cr: nat, dim: nat)
      requires dim >= 1
      ensures Valid()
      ensures this.dim == dim && this.cr == Corner(cr, dim)
      ensures lb == Phi(ZeroState(dim), dim) && ub == Phi(Corner(cr, dim), dim)
      ensures nStates == NStates(cr, dim)
      ensures bijection == map[]
    {
      this.dim := dim;
      cl := ZeroState(dim);
      this.cr := Corner(cr, dim);
      PhiZero(dim);
      PhiInverseOfPhi(ZeroState(dim), dim);
      PhiInverseOfPhi(Corner(cr, dim), dim);
      lb := Phi(ZeroState(dim), dim);
      ub := Phi(Corner(cr, dim), dim);
      nStates := Phi(Corner(cr, dim), dim) - Phi(ZeroState(dim), dim) + 1;
      bijection := map[];
    }

    /** `bijection[z] = x` on a bidict: a key may be rebound, but binding a value
        that another key already holds is an error. */
    method Put(z: nat, x: seq<nat>)
      requires forall k :: k in bijection && k != z ==> bijection[k] != x
      modifies this
      ensures bijection == old(bijection)[z := x]
    {
      bijection := bijection[z := x];
    }

    /** Records lb -> cl and ub -> cr, then z -> Φ^{-1}(z) for z in lb..ub-1. */
    method CreateBijection()
      requires Valid()
      modifies this
      ensures Valid()
      ensures bijection == EnumerationUpTo(dim, nStates)
    {
      PartialEnumerationPut(bijection, lb, dim, ub);
      Put(lb, cl);
      PartialEnumerationPut(bijection, ub, dim, ub);
      Put(ub, cr);
      for z := lb to ub
        invariant PartialEnumeration(bijection, dim, ub)
        invariant ub in bijection
        invariant forall k :: lb <= k < z ==> k in bijection
      {
        PartialEnumerationPut(bijection, z, dim, ub);
        Put(z, PhiInverse(z, dim));
      }
      PartialEnumerationComplete(bijection, dim, ub);
    }
  }
}

=== FILE: Examples.dfy ===
/** The controlled bursting-gene network as an instance of the model: two
    species, four reactions, one parameter per reaction. */
module Examples {
  import opened Enumeration
  import opened Generator

  /** Rates of R1, R3, R4 and R2; a missing parameter or coordinate gives 0. */
  function Lambda1(p: seq<real>, x: seq<nat>): real
  {
    if |p| > 0 && |x| > 0 then p[0] * (1.0 - x[0] as real) else 0.0
  }

  function Lambda3(p: seq<real>, x: seq<nat>): real
  {
    if |p| > 1 && |x| > 0 then p[1] * (x[0] as real) else 0.0
  }

  function Lambda4(p: seq<real>, x: seq<nat>): real
  {
    if |p| > 2 && |x| > 1 then p[2] * (x[1] as real) else 0.0
  }

  function Lambda2(p: seq<real>, x: seq<nat>): real
  {
    if |p| > 3 && |x| > 0 then p[3] * (x[0] as real) else 0.0
  }

  /** Reactions R1, R3, R4, R2 with change vectors (1, 0), (0, 1), (0, -1)
      and (-1, 0). */
  function ControlNetwork(): (crn: Crn)
    ensures WellFormed(crn)
    ensures crn.nSpecies == 2 && crn.nReactions == 4 && crn.nParams == 4
  {
    Crn([[1, 0], [0, 1], [0, -1], [-1, 0]], [Lambda1, Lambda3, Lambda4, Lambda2], 4, 4, 2)
  }

  /** Every state with x0 >= 2 inside the truncation is enumerated, and R1
      fires there at rate 1 - x0 < 0 (at unit parameters). So once Cr >= 2 the
      network never meets NonNegative: the sub-generator property of A rests
      on non-negative rates, which the enumeration does not provide. */
  lemma ControlRateNegative(cr: nat, x: seq<nat>)
    requires |x| == 2 && x[0] >= 2 && x[0] + x[1] <= cr
    ensures Phi(x, 2) < NStates(cr, 2)
    ensures Rate(ControlNetwork(), 0, Phi(x, 2)) == 1.0 - x[0] as real
    ensures forall params :: !NonNegative(ControlNetwork(), cr, params)
  {
    var crn, z := ControlNetwork(), Phi(x, 2);
    PhiInverseOfPhi(x, 2);
    DomainTwoSpecies(x, cr);
    var ones := Ones(4);
    assert Rate(crn, 0, z) == Lambda1(ones, x) == 1.0 * (1.0 - x[0] as real);
    forall params
      ensures !NonNegative(crn, cr, params)
    {
      NegativeRate(crn, cr, params, 0, z);
    }
  }
}

=== FILE: Generator.dfy ===
/** The generator of the truncated chemical master equation: one rate matrix
    B_i per reaction (propensity at unit parameters), their parameter-weighted
    sum A, and the block matrix [[A, 0], [B_i, A]] that drives the probability
    vector together with its sensitivity to parameter i. */
module Generator {
  import opened Linear
  import opened Enumeration

  /** A propensity function: (parameter vector, state) -> rate. */
  type Propensity = (seq<real>, seq<nat>) -> real

  /** A chemical reaction network. `stoich[i]` is the net change vector of
      reaction i (column i of the species-by-reaction stoichiometric matrix). */
  datatype Crn = Crn(
    stoich: seq<seq<int>>,
    propensities: seq<Propensity>,
    nParams: nat,
    nReactions: nat,
    nSpecies: nat)

  predicate WellFormed(crn: Crn)
  {
    && crn.nSpecies >= 1
    && |crn.stoich| == crn.nReactions
    && |crn.propensities| == crn.nReactions
    && forall i :: 0 <= i < crn.nReactions ==> |crn.stoich[i]| == crn.nSpecies
  }

  /** The unit parameter vector the rate matrices are built with. */
  function Ones(n: nat): (v: seq<real>)
    ensures |v| == n
    ensures forall i :: 0 <= i < n ==> v[i] == 1.0
  {
    seq(n, _ => 1.0)
  }

  /** x + nu: the state reached when a reaction fires; it may have negative coordinates. */
  function Shift(x: seq<nat>, nu: seq<int>): (y: seq<int>)
    requires |x| == |nu|
    ensures |y| == |x|
    ensures forall i :: 0 <= i < |y| ==> y[i] == x[i] + nu[i]
  {
    seq(|x|, i requires 0 <= i < |x| => x[i] + nu[i])
  }

  /** Size of the truncated state space of crn. */
  function Size(crn: Crn, cr: nat): nat
    requires WellFormed(crn)
  {
    NStates(cr, crn.nSpecies)
  }

  /** Propensity of reaction i at the z-th enumerated state, all parameters 1. */
  function Rate(crn: Crn, i: nat, z: nat): real
    requires WellFormed(crn) && i < crn.nReactions
  {
    crn.propensities[i](Ones(crn.nParams), PhiInverse(z, crn.nSpecies))
  }

  /** Index of the state reaction i leads to from the z-th state, or -1 when that
      state has a negative coordinate or lies beyond ub. */
  function Destination(crn: Crn, cr: nat, i: nat, z: nat): int
    requires WellFormed(crn) && i < crn.nReactions
  {
    IndexOf(Shift(PhiInverse(z, crn.nSpecies), crn.stoich[i]), cr, crn.nSpecies)
  }

  /** Reaction i moves the z-th state to a different enumerated state. */
  predicate Retained(crn: Crn, cr: nat, i: nat, z: nat)
    requires WellFormed(crn) && i < crn.nReactions
  {
    Destination(crn, cr, i, z) >= 0 && Destination(crn, cr, i, z) != z
  }

  /** Entry (r, c) of B_i: minus the rate on the diagonal, the rate at the row of
      the kept destination of state c, zero elsewhere. The diagonal is written
      last, so it wins when the destination is c itself. */
  function BEntry(crn: Crn, cr: nat, i: nat, r: nat, c: nat): real
    requires WellFormed(crn) && i < crn.nReactions
  {
    if r == c then -Rate(crn, i, c)
    else if Destination(crn, cr, i, c) == r then Rate(crn, i, c)
    else 0.0
  }

  function BMatrix(crn: Crn, cr: nat, i: nat): (B: Matrix)
    requires WellFormed(crn) && i < crn.nReactions
    ensures |B| == Size(crn, cr) && Rows(B, Size(crn, cr))
  {
    var n := Size(crn, cr);
    seq(n, r requires 0 <= r < n => seq(n, c requires 0 <= c < n => BEntry(crn, cr, i, r, c)))
  }

  /** Entry (r, c) of B_i in terms of the rate and the destination of state c. */
  lemma BMatrixEntry(crn: Crn, cr: nat, i: nat, r: nat, c: nat, rate: real, dest: int)
    requires WellFormed(crn) && i < crn.nReactions && r < Size(crn, cr) && c < Size(crn, cr)
    requires rate == Rate(crn, i, c) && dest == Destination(crn, cr, i, c)
    ensures BMatrix(crn, cr, i)[r][c] == if r == c then -rate else if dest == r then rate else 0.0
  {
  }

  /** Column c of B_i sums to zero when reaction i moves state c to another kept
      state, and to minus its rate when the destination is dropped (or is c itself). */
  lemma BColumnSum(crn: Crn, cr: nat, i: nat, c: nat)
    requires WellFormed(crn) && i < crn.nReactions && c < Size(crn, cr)
    ensures Sum(Column(BMatrix(crn, cr, i), c)) == if Retained(crn, cr, i, c) then 0.0 else -Rate(crn, i, c)
  {
    var n := Size(crn, cr);
    var p := Rate(crn, i, c);
    var d := Destination(crn, cr, i, c);
    IndexOfFindsState(Shift(PhiInverse(c, crn.nSpecies), crn.stoich[i]), cr, crn.nSpecies);
    var col := Column(BMatrix(crn, cr, i), c);
    var z := ZeroVector(n);
    SumZero(n);
    SumUpdate(z, c, -p);
    if d >= 0 && d != c {
      assert col == z[c := -p][d := p];
      SumUpdate(z[c := -p], d, p);
    } else {
      assert col == z[c := -p];
    }
  }

  /** The entries B_0[r][c], ..., B_{R-1}[r][c] of the R reaction matrices. */
  function ReactionEntries(crn: Crn, cr: nat, r: nat, c: nat): (e: Vector)
    requires WellFormed(crn)
    ensures |e| == crn.nReactions
    ensures forall i :: 0 <= i < crn.nReactions ==> e[i] == BEntry(crn, cr, i, r, c)
  {
    seq(crn.nReactions, i requires 0 <= i < crn.nReactions => BEntry(crn, cr, i, r, c))
  }

  /** A = Σ_i params[i] * B_i, summed in reaction order. */
  function CreateA(crn: Crn, cr: nat, params: seq<real>): (A: Matrix)
    requires WellFormed(crn) && 1 <= crn.nReactions == |params|
    ensures |A| == Size(crn, cr) && Rows(A, Size(crn, cr))
  {
    var n := Size(crn, cr);
    seq(n, r requires 0 <= r < n => seq(n, c requires 0 <= c < n => Dot(ReactionEntries(crn, cr, r, c), params)))
  }

  /** A is linear in each parameter with slope B_j: moving params[j] by h moves A
      by h * B_j. This is why the sensitivity equation uses B_j as dA/dθ_j. */
  lemma ALinearInParams(crn: Crn, cr: nat, params: seq<real>, j: nat, h: real, r: nat, c: nat)
    requires WellFormed(crn) && |params| == crn.nReactions && j < crn.nReactions
    requires r < Size(crn, cr) && c < Size(crn, cr)
    ensures CreateA(crn, cr, params[j := params[j] + h])[r][c]
         == CreateA(crn, cr, params)[r][c] + h * BMatrix(crn, cr, j)[r][c]
  {
    var e := ReactionEntries(crn, cr, r, c);
    var params' := params[j := params[j] + h];
    assert CreateA(crn, cr, params')[r][c] == Dot(e, params');
    assert CreateA(crn, cr, params)[r][c] == Dot(e, params);
    assert BMatrix(crn, cr, j)[r][c] == e[j];
    DotUpdate(e, params, j, h);
  }

  /** Rate of each reaction out of state c that the truncation discards: the
      destination is dropped or is c itself; zero when the destination is kept. */
  function Lost(crn: Crn, cr: nat, c: nat): (l: Vector)
    requires WellFormed(crn)
    ensures |l| == crn.nReactions
    ensures forall i :: 0 <= i < crn.nReactions ==> l[i] == if Retained(crn, cr, i, c) then 0.0 else Rate(crn, i, c)
  {
    seq(crn.nReactions, i requires 0 <= i < crn.nReactions => if Retained(crn, cr, i, c) then 0.0 else Rate(crn, i, c))
  }

  /** Row r holds the reaction entries B_0[r][c], ..., B_{R-1}[r][c]. */
  function EntryMatrix(crn: Crn, cr: nat, c: nat): (M: Matrix)
    requires WellFormed(crn)
    ensures |M| == Size(crn, cr) && Rows(M, crn.nReactions)
  {
    seq(Size(crn, cr), r requires 0 <= r < Size(crn, cr) => ReactionEntries(crn, cr, r, c))
  }

  lemma ColumnOfA(crn: Crn, cr: nat, params: seq<real>, c: nat)
    requires WellFormed(crn) && 1 <= crn.nReactions == |params| && c < Size(crn, cr)
    ensures Column(CreateA(crn, cr, params), c) == MatVec(EntryMatrix(crn, cr, c), params)
  {
    var A, M := CreateA(crn, cr, params), EntryMatrix(crn, cr, c);
    forall r | 0 <= r < Size(crn, cr)
      ensures Column(A, c)[r] == MatVec(M, params)[r]
    {
      assert A[r][c] == Dot(M[r], params);
    }
  }

  lemma EntryColumnSums(crn: Crn, cr: nat, c: nat)
    requires WellFormed(crn) && c < Size(crn, cr)
    ensures forall i :: 0 <= i < crn.nReactions ==> ColumnSums(EntryMatrix(crn, cr, c), crn.nReactions)[i] == -Lost(crn, cr, c)[i]
  {
    var M, l := EntryMatrix(crn, cr, c), Lost(crn, cr, c);
    forall i | 0 <= i < crn.nReactions
      ensures ColumnSums(M, crn.nReactions)[i] == -l[i]
    {
      var B := BMatrix(crn, cr, i);
      forall r | 0 <= r < Size(crn, cr)
        ensures Column(M, i)[r] == Column(B, c)[r]
      {
        assert M[r][i] == BEntry(crn, cr, i, r, c) == B[r][c];
      }
      assert Column(M, i) == Column(B, c);
      BColumnSum(crn, cr, i, c);
    }
  }

  lemma LostNone(crn: Crn, cr: nat, c: nat)
    requires WellFormed(crn)
    requires forall i :: 0 <= i < crn.nReactions ==> Retained(crn, cr, i, c)
    ensures Lost(crn, cr, c) == ZeroVector(crn.nReactions)
  {
  }

  /** Column c of A sums to minus the parameter-weighted rate lost from state c;
      when every reaction keeps state c inside the truncation, it sums to zero. */
  lemma AColumnSum(crn: Crn, cr: nat, params: seq<real>, c: nat)
    requires WellFormed(crn) && 1 <= crn.nReactions == |params| && c < Size(crn, cr)
    ensures Sum(Column(CreateA(crn, cr, params), c)) == -Dot(Lost(crn, cr, c), params)
    ensures (forall i :: 0 <= i < crn.nReactions ==> Retained(crn, cr, i, c))
         ==> Sum(Column(CreateA(crn, cr, params), c)) == 0.0
  {
    var M, l := EntryMatrix(crn, cr, c), Lost(crn, cr, c);
    ColumnOfA(crn, cr, params, c);
    SumMatVec(M, params);
    EntryColumnSums(crn, cr, c);
    DotNegate(ColumnSums(M, crn.nReactions), l, params);
    if forall i :: 0 <= i < crn.nReactions ==> Retained(crn, cr, i, c) {
      LostNone(crn, cr, c);
      DotZero(params);
    }
  }

  /** Non-negative parameters and rates (the source's contract for propensities;
      it is not checked, and some propensities break it inside the domain). */
  predicate NonNegative(crn: Crn, cr: nat, params: seq<real>)
    requires WellFormed(crn)
  {
    && (forall i :: 0 <= i < |params| ==> params[i] >= 0.0)
    && (forall i, z :: 0 <= i < crn.nReactions && 0 <= z < Size(crn, cr) ==> Rate(crn, i, z) >= 0.0)
  }

  /** One negative rate at an enumerated state breaks NonNegative. */
  lemma NegativeRate(crn: Crn, cr: nat, params: seq<real>, i: nat, z: nat)
    requires WellFormed(crn) && i < crn.nReactions && z < Size(crn, cr)
    requires Rate(crn, i, z) < 0.0
    ensures !NonNegative(crn, cr, params)
  {
  }

  /** Under non-negative rates and parameters A is a sub-generator: off-diagonal
      entries are non-negative and every column sums to at most zero. */
  lemma ASubGenerator(crn: Crn, cr: nat, params: seq<real>, r: nat, c: nat)
    requires WellFormed(crn) && 1 <= crn.nReactions == |params| && NonNegative(crn, cr, params)
    requires r < Size(crn, cr) && c < Size(crn, cr)
    ensures r != c ==> CreateA(crn, cr, params)[r][c] >= 0.0
    ensures Sum(Column(CreateA(crn, cr, params), c)) <= 0.0
  {
    if r != c {
      DotNonNegative(ReactionEntries(crn, cr, r, c), params);
    }
    DotNonNegative(Lost(crn, cr, c), params);
    AColumnSum(crn, cr, params, c);
  }

  /** The augmented matrix [[A, 0], [B_index, A]] of size 2 n. */
  function ConstantMatrix(crn: Crn, cr: nat, params: seq<real>, index: nat): (C: Matrix)
    requires WellFormed(crn) && |params| == crn.nReactions && index < crn.nReactions
    ensures |C| == 2 * Size(crn, cr) && Rows(C, 2 * Size(crn, cr))
    ensures forall r, c :: 0 <= r < Size(crn, cr) && 0 <= c < Size(crn, cr) ==>
      C[r][c] == CreateA(crn, cr, params)[r][c]
    ensures forall r, c :: 0 <= r < Size(crn, cr) && Size(crn, cr) <= c < 2 * Size(crn, cr) ==>
      C[r][c] == 0.0
    ensures forall r, c :: Size(crn, cr) <= r < 2 * Size(crn, cr) && 0 <= c < Size(crn, cr) ==>
      C[r][c] == BMatrix(crn, cr, index)[r - Size(crn, cr)][c]
    ensures forall r, c :: Size(crn, cr) <= r < 2 * Size(crn, cr) && Size(crn, cr) <= c < 2 * Size(crn, cr) ==>
      C[r][c] == CreateA(crn, cr, params)[r - Size(crn, cr)][c - Size(crn, cr)]
  {
    BlockMatrix(CreateA(crn, cr, params), BMatrix(crn, cr, index), Size(crn, cr))
  }

  /** For the joint vector p ++ S: the top half of C(p ++ S) is A p, whatever S
      is, and the bottom half is B_index p + A S. */
  lemma ConstantMatrixProduct(crn: Crn, cr: nat, params: seq<real>, index: nat, p: Vector, S: Vector)
    requires WellFormed(crn) && |params| == crn.nReactions && index < crn.nReactions
    requires |p| == Size(crn, cr) && |S| == Size(crn, cr)
    ensures MatVec(ConstantMatrix(crn, cr, params, index), p + S)[..Size(crn, cr)]
         == MatVec(CreateA(crn, cr, params), p)
    ensures MatVec(ConstantMatrix(crn, cr, params, index), p + S)[Size(crn, cr)..]
         == Add(MatVec(BMatrix(crn, cr, index), p), MatVec(CreateA(crn, cr, params), S))
  {
    BlockMatrixProduct(CreateA(crn, cr, params), BMatrix(crn, cr, index), Size(crn, cr), p, S);
  }
}

=== FILE: Linear.dfy ===
/** Dense real vectors and matrices: the finite sums, dot products and
    matrix-vector products that the generator and the marginals are stated in. */
module Linear {

  type Vector = seq<real>
  type Matrix = seq<seq<real>>

  /** Sum of a vector, accumulated left to right. */
  function Sum(s: Vector): real
  {
    if |s| == 0 then 0.0 else Sum(s[..|s| - 1]) + s[|s| - 1]
  }

  function ZeroVector(n: nat): (z: Vector)
    ensures |z| == n
    ensures forall i :: 0 <= i < n ==> z[i] == 0.0
  {
    seq(n, _ => 0.0)
  }

  /** Entrywise sum of two vectors of the same length. */
  function Add(u: Vector, v: Vector): (w: Vector)
    requires |u| == |v|
    ensures |w| == |u|
    ensures forall i :: 0 <= i < |w| ==> w[i] == u[i] + v[i]
  {
    seq(|u|, i requires 0 <= i < |u| => u[i] + v[i])
  }

  function Scale(a: real, u: Vector): (w: Vector)
    ensures |w| == |u|
    ensures forall i :: 0 <= i < |w| ==> w[i] == a * u[i]
  {
    seq(|u|, i requires 0 <= i < |u| => a * u[i])
  }

  function Dot(u: Vector, v: Vector): real
    requires |u| == |v|
  {
    if |u| == 0 then 0.0 else Dot(u[..|u| - 1], v[..|v| - 1]) + u[|u| - 1] * v[|v| - 1]
  }

  /** Every row of M has n entries. */
  predicate Rows(M: Matrix, n: nat)
  {
    forall r :: 0 <= r < |M| ==> |M[r]| == n
  }

  function MatVec(M: Matrix, x: Vector): (y: Vector)
    requires Rows(M, |x|)
    ensures |y| == |M|
    ensures forall r :: 0 <= r < |M| ==> y[r] == Dot(M[r], x)
  {
    seq(|M|, r requires 0 <= r < |M| => Dot(M[r], x))
  }

  /** Column c of M. */
  function Column(M: Matrix, c: nat): (col: Vector)
    requires forall r :: 0 <= r < |M| ==> c < |M[r]|
    ensures |col| == |M|
    ensures forall r :: 0 <= r < |M| ==> col[r] == M[r][c]
  {
    seq(|M|, r requires 0 <= r < |M| => M[r][c])
  }

  lemma {:induction false} SumZero(n: nat)
    ensures Sum(ZeroVector(n)) == 0.0
  {
    if n > 0 {
      assert ZeroVector(n)[..n - 1] == ZeroVector(n - 1);
      SumZero(n - 1);
    }
  }

  /** Replacing one entry changes the sum by exactly the difference. */
  lemma {:induction false} SumUpdate(s: Vector, k: nat, v: real)
    requires k < |s|
    ensures Sum(s[k := v]) == Sum(s) - s[k] + v
  {
    var n := |s|;
    if k == n - 1 {
      assert s[k := v][..n - 1] == s[..n - 1];
    } else {
      assert s[k := v][..n - 1] == s[..n - 1][k := v];
      SumUpdate(s[..n - 1], k, v);
    }
  }

  /** The dot product splits over concatenated blocks. */
  lemma {:induction false} DotAppend(a1: Vector, a2: Vector, b1: Vector, b2: Vector)
    requires |a1| == |b1| && |a2| == |b2|
    ensures Dot(a1 + a2, b1 + b2) == Dot(a1, b1) + Dot(a2, b2)
  {
    if |a2| > 0 {
      var m := |a2| - 1;
      assert (a1 + a2)[..|a1 + a2| - 1] == a1 + a2[..m];
      assert (b1 + b2)[..|b1 + b2| - 1] == b1 + b2[..m];
      DotAppend(a1, a2[..m], b1, b2[..m]);
    } else {
      assert a1 + a2 == a1 && b1 + b2 == b1;
    }
  }

  lemma {:induction false} DotZero(v: Vector)
    ensures Dot(ZeroVector(|v|), v) == 0.0
  {
    var n := |v|;
    if n > 0 {
      assert ZeroVector(n)[..n - 1] == ZeroVector(n - 1);
      DotZero(v[..n - 1]);
    }
  }

  /** Changing one weight by h changes a dot product by h times the matching entry. */
  lemma {:induction false} DotUpdate(u: Vector, w: Vector, j: nat, h: real)
    requires |u| == |w| && j < |w|
    ensures Dot(u, w[j := w[j] + h]) == Dot(u, w) + h * u[j]
  {
    var n := |w|;
    var w' := w[j := w[j] + h];
    if j < n - 1 {
      assert w'[..n - 1] == w[..n - 1][j := w[j] + h];
      DotUpdate(u[..n - 1], w[..n - 1], j, h);
    } else {
      assert w'[..n - 1] == w[..n - 1];
      assert u[n - 1] * w'[n - 1] == u[n - 1] * w[n - 1] + h * u[j];
    }
  }

  lemma {:induction false} DotAdd(u: Vector, v: Vector, w: Vector)
    requires |u| == |v| == |w|
    ensures Dot(Add(u, v), w) == Dot(u, w) + Dot(v, w)
  {
    var n := |u|;
    if n > 0 {
      assert Add(u, v)[..n - 1] == Add(u[..n - 1], v[..n - 1]);
      DotAdd(u[..n - 1], v[..n - 1], w[..n - 1]);
      assert (u[n - 1] + v[n - 1]) * w[n - 1] == u[n - 1] * w[n - 1] + v[n - 1] * w[n - 1];
    }
  }

  /** Negating the first vector negates the dot product. */
  lemma {:induction false} DotNegate(u: Vector, v: Vector, w: Vector)
    requires |u| == |v| == |w|
    requires forall i :: 0 <= i < |u| ==> u[i] == -v[i]
    ensures Dot(u, w) == -Dot(v, w)
  {
    var n := |u|;
    if n > 0 {
      DotNegate(u[..n - 1], v[..n - 1], w[..n - 1]);
      assert u[n - 1] * w[n - 1] == -(v[n - 1] * w[n - 1]);
    }
  }

  lemma {:induction false} DotNonNegative(u: Vector, w: Vector)
    requires |u| == |w|
    requires forall i :: 0 <= i < |u| ==> u[i] >= 0.0 && w[i] >= 0.0
    ensures Dot(u, w) >= 0.0
  {
    var n := |u|;
    if n > 0 {
      DotNonNegative(u[..n - 1], w[..n - 1]);
      assert u[n - 1] * w[n - 1] >= 0.0;
    }
  }

  /** The row vector of column sums of M, whose rows have m entries. */
  function ColumnSums(M: Matrix, m: nat): (cs: Vector)
    requires Rows(M, m)
    ensures |cs| == m
    ensures forall i :: 0 <= i < m ==> cs[i] == Sum(Column(M, i))
  {
    seq(m, i requires 0 <= i < m => Sum(Column(M, i)))
  }

  /** Summing a matrix-vector product: 1^T (M w) == (1^T M) w. */
  lemma {:induction false} SumMatVec(M: Matrix, w: Vector)
    requires Rows(M, |w|)
    ensures Sum(MatVec(M, w)) == Dot(ColumnSums(M, |w|), w)
  {
    var n, m := |M|, |w|;
    if n == 0 {
      assert ColumnSums(M, m) == ZeroVector(m);
      DotZero(w);
    } else {
      var P := M[..n - 1];
      assert MatVec(M, w)[..n - 1] == MatVec(P, w);
      SumMatVec(P, w);
      ColumnSumsLastRow(M, m);
      DotAdd(ColumnSums(P, m), M[n - 1], w);
    }
  }

  /** The column sums of M are those of M without its last row, plus that row. */
  lemma ColumnSumsLastRow(M: Matrix, m: nat)
    requires Rows(M, m) && |M| > 0
    ensures ColumnSums(M, m) == Add(ColumnSums(M[..|M| - 1], m), M[|M| - 1])
  {
    var P := M[..|M| - 1];
    forall i | 0 <= i < m
      ensures ColumnSums(M, m)[i] == Add(ColumnSums(P, m), M[|M| - 1])[i]
    {
      assert Column(M, i)[..|M| - 1] == Column(P, i);
    }
  }

  /** The block matrix [[A, 0], [B, A]] for n-by-n blocks A and B. */
  function BlockMatrix(A: Matrix, B: Matrix, n: nat): (C: Matrix)
    requires |A| == n && Rows(A, n) && |B| == n && Rows(B, n)
    ensures |C| == 2 * n && Rows(C, 2 * n)
    ensures forall r :: 0 <= r < n ==> C[r] == A[r] + ZeroVector(n)
    ensures forall r :: n <= r < 2 * n ==> C[r] == B[r - n] + A[r - n]
    ensures forall r, c :: 0 <= r < n && 0 <= c < n ==> C[r][c] == A[r][c]
    ensures forall r, c :: 0 <= r < n && n <= c < 2 * n ==> C[r][c] == 0.0
    ensures forall r, c :: n <= r < 2 * n && 0 <= c < n ==> C[r][c] == B[r - n][c]
    ensures forall r, c :: n <= r < 2 * n && n <= c < 2 * n ==> C[r][c] == A[r - n][c - n]
  {
    seq(2 * n, r requires 0 <= r < 2 * n => BlockRow(A, B, n, r))
  }

  function BlockRow(A: Matrix, B: Matrix, n: nat, r: nat): (row: Vector)
    requires |A| == n && Rows(A, n) && |B| == n && Rows(B, n) && r < 2 * n
    ensures |row| == 2 * n
  {
    if r < n then A[r] + ZeroVector(n) else B[r - n] + A[r - n]
  }

  /** [[A, 0], [B, A]] (p ++ S) == (A p) ++ (B p + A S). */
  lemma BlockMatrixProduct(A: Matrix, B: Matrix, n: nat, p: Vector, S: Vector)
    requires |A| == n && Rows(A, n) && |B| == n && Rows(B, n)
    requires |p| == n && |S| == n
    ensures MatVec(BlockMatrix(A, B, n), p + S)[..n] == MatVec(A, p)
    ensures MatVec(BlockMatrix(A, B, n), p + S)[n..] == Add(MatVec(B, p), MatVec(A, S))
  {
    var C := BlockMatrix(A, B, n);
    var y := MatVec(C, p + S);
    forall r | 0 <= r < n
      ensures y[r] == Dot(A[r], p)
    {
      DotAppend(A[r], ZeroVector(n), p, S);
      DotZero(S);
    }
    forall r | n <= r < 2 * n
      ensures y[r] == Dot(B[r - n], p) + Dot(A[r - n], S)
    {
      DotAppend(B[r - n], A[r - n], p, S);
    }
  }
}

=== FILE: Marginalization.dfy ===
/** Marginal distributions of one species over the truncated state space: the
    mass of every enumerated state is added to the bucket of its count of that
    species. */
module Marginalization {
  import opened Linear
  import opened Enumeration

  /** The enumerated states Φ^{-1}(0), ..., Φ^{-1}(n_states - 1), in key order. */
  function States(cr: nat, dim: nat): (s: seq<seq<nat>>)
    requires dim >= 1
    ensures |s| == NStates(cr, dim)
    ensures forall z :: 0 <= z < |s| ==> s[z] == PhiInverse(z, dim)
  {
    seq(NStates(cr, dim), z requires 0 <= z < NStates(cr, dim) => PhiInverse(z, dim))
  }

  /** No enumerated state holds more than Cr copies of a species, so Cr + 1
      buckets hold every marginal count. */
  lemma StatesBounded(cr: nat, dim: nat)
    requires dim >= 1
    ensures forall z, i :: 0 <= z < NStates(cr, dim) && 0 <= i < dim ==> States(cr, dim)[z][i] <= cr
  {
    forall z | 0 <= z < NStates(cr, dim)
      ensures forall i :: 0 <= i < dim ==> States(cr, dim)[z][i] <= cr
    {
      EnumeratedStateInDomain(z, cr, dim);
      DomainCoordinatesBounded(PhiInverse(z, dim), cr, dim);
    }
  }

  /** Every state has a coordinate for species ind. */
  predicate Indexable(states: seq<seq<nat>>, ind: nat)
  {
    forall z :: 0 <= z < |states| ==> ind < |states[z]|
  }

  /** Σ p[z] over the first m states whose count of species ind is k. */
  function Bucket(p: Vector, states: seq<seq<nat>>, ind: nat, k: nat, m: nat): real
    requires m <= |p| && m <= |states| && Indexable(states, ind)
  {
    if m == 0 then 0.0
    else Bucket(p, states, ind, k, m - 1) + (if states[m - 1][ind] == k then p[m - 1] else 0.0)
  }

  /** The marginal of p over counts 0..width-1 after the first m states. */
  function MarginalUpTo(p: Vector, states: seq<seq<nat>>, ind: nat, width: nat, m: nat): (q: Vector)
    requires m <= |p| && m <= |states| && Indexable(states, ind)
    ensures |q| == width
    ensures forall k :: 0 <= k < width ==> q[k] == Bucket(p, states, ind, k, m)
  {
    seq(width, k requires 0 <= k < width => Bucket(p, states, ind, k, m))
  }

  /** The marginal of the whole vector p. */
  function Marginal(p: Vector, states: seq<seq<nat>>, ind: nat, width: nat): (q: Vector)
    requires |p| == |states| && Indexable(states, ind)
    ensures |q| == width
  {
    MarginalUpTo(p, states, ind, width, |p|)
  }

  /** The entries s[0][j], ..., s[N-1][j]: the sensitivity to parameter j. */
  function SensitivityColumn(s: seq<seq<real>>, j: nat): (v: Vector)
    requires forall z :: 0 <= z < |s| ==> j < |s[z]|
    ensures |v| == |s|
    ensures forall z :: 0 <= z < |s| ==> v[z] == s[z][j]
  {
    seq(|s|, z requires 0 <= z < |s| => s[z][j])
  }

  /** Adding state m - 1 moves its mass into its own bucket and nowhere else. */
  lemma MarginalStep(p: Vector, states: seq<seq<nat>>, ind: nat, width: nat, m: nat)
    requires 0 < m <= |p| && m <= |states| && Indexable(states, ind)
    requires states[m - 1][ind] < width
    ensures var x := states[m - 1][ind];
      MarginalUpTo(p, states, ind, width, m)
        == MarginalUpTo(p, states, ind, width, m - 1)[x := MarginalUpTo(p, states, ind, width, m - 1)[x] + p[m - 1]]
  {
  }

  lemma {:induction false} MarginalUpToMass(p: Vector, states: seq<seq<nat>>, ind: nat, width: nat, m: nat)
    requires m <= |p| && m <= |states| && Indexable(states, ind)
    requires forall z :: 0 <= z < |states| ==> states[z][ind] < width
    ensures Sum(MarginalUpTo(p, states, ind, width, m)) == Sum(p[..m])
  {
    if m == 0 {
      assert MarginalUpTo(p, states, ind, width, 0) == ZeroVector(width);
      SumZero(width);
    } else {
      var prev := MarginalUpTo(p, states, ind, width, m - 1);
      var x := states[m - 1][ind];
      MarginalStep(p, states, ind, width, m);
      SumUpdate(prev, x, prev[x] + p[m - 1]);
      MarginalUpToMass(p, states, ind, width, m - 1);
      assert p[..m][..m - 1] == p[..m - 1];
    }
  }

  /** Marginalizing keeps the total mass when every count has a bucket. */
  lemma MarginalMass(p: Vector, states: seq<seq<nat>>, ind: nat, width: nat)
    requires |p| == |states| && Indexable(states, ind)
    requires forall z :: 0 <= z < |states| ==> states[z][ind] < width
    ensures Sum(Marginal(p, states, ind, width)) == Sum(p)
  {
    MarginalUpToMass(p, states, ind, width, |p|);
    assert p[..|p|] == p;
  }

  lemma {:induction false} BucketNonNegative(p: Vector, states: seq<seq<nat>>, ind: nat, k: nat, m: nat)
    requires m <= |p| && m <= |states| && Indexable(states, ind)
    requires forall z :: 0 <= z < |p| ==> p[z] >= 0.0
    ensures Bucket(p, states, ind, k, m) >= 0.0
  {
    if m > 0 {
      BucketNonNegative(p, states, ind, k, m - 1);
    }
  }

  /** A marginal of a non-negative vector is non-negative. */
  lemma MarginalNonNegative(p: Vector, states: seq<seq<nat>>, ind: nat, width: nat)
    requires |p| == |states| && Indexable(states, ind)
    requires forall z :: 0 <= z < |p| ==> p[z] >= 0.0
    ensures forall k :: 0 <= k < width ==> Marginal(p, states, ind, width)[k] >= 0.0
  {
    forall k | 0 <= k < width
      ensures Marginal(p, states, ind, width)[k] >= 0.0
    {
      BucketNonNegative(p, states, ind, k, |p|);
    }
  }

  lemma {:induction false} BucketPoint(p: Vector, states: seq<seq<nat>>, ind: nat, k: nat, m: nat, z: nat)
    requires m <= |p| && m <= |states| && Indexable(states, ind) && z < |p|
    requires forall y :: 0 <= y < |p| ==> p[y] == if y == z then 1.0 else 0.0
    ensures Bucket(p, states, ind, k, m) == if z < m && states[z][ind] == k then 1.0 else 0.0
  {
    if m > 0 {
      BucketPoint(p, states, ind, k, m - 1, z);
    }
  }

  /** The marginal of the distribution concentrated on state z is concentrated
      on that state's count of species ind. */
  lemma MarginalOfPointMass(p: Vector, states: seq<seq<nat>>, ind: nat, width: nat, z: nat)
    requires |p| == |states| && Indexable(states, ind) && z < |p|
    requires forall y :: 0 <= y < |p| ==> p[y] == if y == z then 1.0 else 0.0
    ensures forall k :: 0 <= k < width ==>
      Marginal(p, states, ind, width)[k] == if states[z][ind] == k then 1.0 else 0.0
  {
    forall k | 0 <= k < width
      ensures Marginal(p, states, ind, width)[k] == if states[z][ind] == k then 1.0 else 0.0
    {
      BucketPoint(p, states, ind, k, |p|, z);
    }
  }

  lemma {:induction false} BucketAdd(p: Vector, q: Vector, states: seq<seq<nat>>, ind: nat, k: nat, m: nat)
    requires |p| == |q| && m <= |p| && m <= |states| && Indexable(states, ind)
    ensures Bucket(Add(p, q), states, ind, k, m) == Bucket(p, states, ind, k, m) + Bucket(q, states, ind, k, m)
  {
    if m > 0 {
      BucketAdd(p, q, states, ind, k, m - 1);
    }
  }

  lemma {:induction false} BucketScale(q: Vector, a: real, states: seq<seq<nat>>, ind: nat, k: nat, m: nat)
    requires m <= |q| && m <= |states| && Indexable(states, ind)
    ensures Bucket(Scale(a, q), states, ind, k, m) == a * Bucket(q, states, ind, k, m)
  {
    if m > 0 {
      BucketScale(q, a, states, ind, k, m - 1);
      var x := Bucket(q, states, ind, k, m - 1);
      if states[m - 1][ind] == k {
        assert a * (x + q[m - 1]) == a * x + a * q[m - 1];
      } else {
        assert a * (x + 0.0) == a * x;
      }
    }
  }

  /** Marginalizing is linear: the marginal of p + a q is the marginal of p plus
      a times the marginal of q. So the marginal of a sensitivity dp/dθ is the
      derivative dθ of the marginal of p, which is why the sensitivities are
      marginalized with the same buckets as the probabilities. */
  lemma MarginalLinear(p: Vector, q: Vector, a: real, states: seq<seq<nat>>, ind: nat, width: nat)
    requires |p| == |q| == |states| && Indexable(states, ind)
    ensures Marginal(Add(p, Scale(a, q)), states, ind, width)
         == Add(Marginal(p, states, ind, width), Scale(a, Marginal(q, states, ind, width)))
  {
    var r := Add(p, Scale(a, q));
    forall k | 0 <= k < width
      ensures Marginal(r, states, ind, width)[k]
           == Add(Marginal(p, states, ind, width), Scale(a, Marginal(q, states, ind, width)))[k]
    {
      BucketAdd(p, Scale(a, q), states, ind, k, |p|);
      BucketScale(q, a, states, ind, k, |p|);
    }
  }
}

=== FILE: Sensitivities.dfy ===
/** The finite state projection driver: it enumerates the truncated state
    space of a reaction network, builds the rate matrix B_i of one reaction as
    a dense array, and folds probability and sensitivity tables into
    per-species marginals. The generator A and the augmented matrix are the
    functions CreateA and ConstantMatrix of module Generator. */
module Sensitivities {
  import opened Linear
  import opened Enumeration
  import opened Generator
  import opened Marginalization

  /** Σ data[k] over the k with rows[k] == i (a boolean-mask sum). */
  function MaskedSum(data: seq<real>, rows: seq<int>, i: int): real
    requires |data| == |rows|
  {
    if |data| == 0 then 0.0
    else
      var n := |data| - 1;
      MaskedSum(data[..n], rows[..n], i) + (if rows[n] == i then data[n] else 0.0)
  }

  /** When rows lists every index once, in order, the mask picks out data[i] alone. */
  lemma {:induction false} MaskedSumIdentity(data: seq<real>, rows: seq<int>, i: int)
    requires |data| == |rows|
    requires forall k :: 0 <= k < |rows| ==> rows[k] == k
    ensures MaskedSum(data, rows, i) == if 0 <= i < |data| then data[i] else 0.0
  {
    if |data| > 0 {
      var n := |data| - 1;
      MaskedSumIdentity(data[..n], rows[..n], i);
    }
  }

  /** `a[t, k, :] += v`: adds v to one slice of a and leaves the rest alone. */
  method AddToSlice(a: array3<real>, t: nat, k: nat, v: seq<real>)
    requires t < a.Length0 && k < a.Length1 && |v| == a.Length2
    modifies a
    ensures forall t', k', j :: 0 <= t' < a.Length0 && 0 <= k' < a.Length1 && 0 <= j < a.Length2 ==>
      a[t', k', j] == if t' == t && k' == k then old(a[t', k', j]) + v[j] else old(a[t', k', j])
  {
    for j := 0 to a.Length2
      invariant forall t', k', j' :: 0 <= t' < a.Length0 && 0 <= k' < a.Length1 && 0 <= j' < a.Length2 ==>
        a[t', k', j'] == if t' == t && k' == k && j' < j then old(a[t', k', j']) + v[j'] else old(a[t', k', j'])
    {
      a[t, k, j] := a[t, k, j] + v[j];
    }
  }

  /** The dense form of the sparse matrix holding data[k] at (columns[k], rows[k])
      for every k whose column lies in 0..n-1; rows[k] is k itself, so no two
      triples share a position. */
  method Scatter(n: nat, data: seq<real>, rows: seq<int>, columns: seq<int>) returns (B: array2<real>)
    requires |data| == n && |rows| == n && |columns| == n
    requires forall k :: 0 <= k < n ==> rows[k] == k
    ensures fresh(B) && B.Length0 == n && B.Length1 == n
    ensures forall r, c :: 0 <= r < n && 0 <= c < n ==> B[r, c] == if columns[c] == r then data[c] else 0.0
  {
    B := new real[n, n]((_, _) => 0.0);
    for k := 0 to n
      invariant forall r, c :: 0 <= r < n && 0 <= c < n ==>
        B[r, c] == if c < k && columns[c] == r then data[c] else 0.0
    {
      if 0 <= columns[k] < n {
        B[columns[k], rows[k]] := data[k];
      }
    }
  }

  /** `B.setdiag(diags)`: overwrites the diagonal, whatever was stored there. */
  method SetDiag(B: array2<real>, diags: seq<real>)
    requires B.Length0 == B.Length1 == |diags|
    modifies B
    ensures forall r, c :: 0 <= r < B.Length0 && 0 <= c < B.Length1 ==>
      B[r, c] == if r == c then diags[r] else old(B[r, c])
  {
    for i := 0 to |diags|
      invariant forall r, c :: 0 <= r < B.Length0 && 0 <= c < B.Length1 ==>
        B[r, c] == if r == c && r < i then diags[r] else old(B[r, c])
    {
      B[i, i] := diags[i];
    }
  }

  /** The sparse matrix of the triples, then its diagonal overwritten by diags. */
  method Assemble(n: nat, data: seq<real>, rows: seq<int>, columns: seq<int>, diags: seq<real>) returns (B: array2<real>)
    requires |data| == n && |rows| == n && |columns| == n && |diags| == n
    requires forall k :: 0 <= k < n ==> rows[k] == k
    ensures fresh(B) && B.Length0 == n && B.Length1 == n
    ensures forall r, c :: 0 <= r < n && 0 <= c < n ==>
      B[r, c] == if r == c then diags[c] else if columns[c] == r then data[c] else 0.0
  {
    B := Scatter(n, data, rows, columns);
    SetDiag(B, diags);
  }

  /** The state each entry reaches when a reaction with change vector nu fires. */
  function Outputs(entries: seq<seq<nat>>, nu: seq<int>): (o: seq<seq<int>>)
    requires forall z :: 0 <= z < |entries| ==> |entries[z]| == |nu|
    ensures |o| == |entries|
    ensures forall z :: 0 <= z < |entries| ==> o[z] == Shift(entries[z], nu)
  {
    seq(|entries|, z requires 0 <= z < |entries| => Shift(entries[z], nu))
  }

  /** The propensity at every entry, with the given parameters. */
  function Propensities(propensity: Propensity, params: seq<real>, entries: seq<seq<nat>>): (data: seq<real>)
    ensures |data| == |entries|
    ensures forall z :: 0 <= z < |entries| ==> data[z] == propensity(params, entries[z])
  {
    seq(|entries|, z requires 0 <= z < |entries| => propensity(params, entries[z]))
  }

  /** The index of every key in d, -1 for a key d does not hold. */
  function Lookup(d: map<seq<nat>, nat>, keys: seq<seq<int>>): (ix: seq<int>)
    ensures |ix| == |keys|
    ensures forall z :: 0 <= z < |keys| ==> ix[z] == GetIndex(d, keys[z])
  {
    seq(|keys|, z requires 0 <= z < |keys| => GetIndex(d, keys[z]))
  }

  /** Minus the sum of the data of each row index 0..n-1. */
  function NegatedRowSums(data: seq<real>, rows: seq<int>, n: nat): (diags: seq<real>)
    requires |data| == |rows|
    ensures |diags| == n
    ensures forall i :: 0 <= i < n ==> diags[i] == -MaskedSum(data, rows, i)
  {
    seq(n, i requires 0 <= i < n => -MaskedSum(data, rows, i))
  }

  /** The triples CreateB computes from the enumeration describe B_index: every
      entry is its own row, and the diagonal, the kept destinations and the
      zeros are those of BMatrix. */
  lemma TriplesOfB(crn: Crn, cr: nat, index: nat, entries: seq<seq<nat>>, d: map<seq<nat>, nat>,
                   data: seq<real>, rows: seq<int>, columns: seq<int>, diags: seq<real>)
    requires WellFormed(crn) && index < crn.nReactions
    requires |entries| == Size(crn, cr)
    requires forall z :: 0 <= z < |entries| ==> entries[z] == PhiInverse(z, crn.nSpecies)
    requires Injective(Bijection(cr, crn.nSpecies)) && d == Inverse(Bijection(cr, crn.nSpecies))
    requires data == Propensities(crn.propensities[index], Ones(crn.nParams), entries)
    requires rows == Lookup(d, entries)
    requires columns == Lookup(d, Outputs(entries, crn.stoich[index]))
    requires diags == NegatedRowSums(data, rows, Size(crn, cr))
    ensures forall z :: 0 <= z < |entries| ==> rows[z] == z
    ensures forall r, c :: 0 <= r < Size(crn, cr) && 0 <= c < Size(crn, cr) ==>
      BMatrix(crn, cr, index)[r][c] == if r == c then diags[c] else if columns[c] == r then data[c] else 0.0
  {
    var n := Size(crn, cr);
    var e := Bijection(cr, crn.nSpecies);
    var outputs := Outputs(entries, crn.stoich[index]);
    forall z | 0 <= z < n
      ensures rows[z] == z
    {
      assert e[z] == entries[z];
    }
    forall r, c | 0 <= r < n && 0 <= c < n
      ensures BMatrix(crn, cr, index)[r][c] == if r == c then diags[c] else if columns[c] == r then data[c] else 0.0
    {
      MaskedSumIdentity(data, rows, c);
      GetIndexIsIndexOf(outputs[c], cr, crn.nSpecies);
      BMatrixEntry(crn, cr, index, r, c, data[c], columns[c]);
    }
  }

  /** One pass of the loop over time samples for state z, whose count of the
      species is x: probs[t][z] is added to bucket x and s[t][z] to slice x,
      at every time sample t. */
  method AddState(mp: array2<real>, ms: array3<real>, probs: seq<seq<real>>, s: seq<seq<seq<real>>>, z: nat, x: nat)
    requires mp.Length0 == ms.Length0 == |probs| == |s| && mp.Length1 == ms.Length1 && x < mp.Length1
    requires forall t :: 0 <= t < |probs| ==> z < |probs[t]| && z < |s[t]| && |s[t][z]| == ms.Length2
    modifies mp, ms
    ensures forall t, k :: 0 <= t < mp.Length0 && 0 <= k < mp.Length1 ==>
      mp[t, k] == old(mp[t, k]) + if k == x then probs[t][z] else 0.0
    ensures forall t, k, j :: 0 <= t < ms.Length0 && 0 <= k < ms.Length1 && 0 <= j < ms.Length2 ==>
      ms[t, k, j] == old(ms[t, k, j]) + if k == x then s[t][z][j] else 0.0
  {
    for t := 0 to |probs|
      invariant forall t', k :: 0 <= t' < mp.Length0 && 0 <= k < mp.Length1 ==>
        mp[t', k] == old(mp[t', k]) + if t' < t && k == x then probs[t'][z] else 0.0
      invariant forall t', k, j :: 0 <= t' < ms.Length0 && 0 <= k < ms.Length1 && 0 <= j < ms.Length2 ==>
        ms[t', k, j] == old(ms[t', k, j]) + if t' < t && k == x then s[t'][z][j] else 0.0
    {
      mp[t, x] := mp[t, x] + probs[t][z];
      AddToSlice(ms, t, x, s[t][z]);
    }
  }

  /** The ODE solution tables have one row per time sample: probs[t] has one
      entry per state, s[t][z] one entry per parameter. */
  predicate SolutionShape(probs: seq<seq<real>>, s: seq<seq<seq<real>>>, nStates: nat, nSens: nat)
  {
    && |s| == |probs|
    && (forall t :: 0 <= t < |probs| ==> |probs[t]| == nStates && |s[t]| == nStates)
    && (forall t, z :: 0 <= t < |s| && 0 <= z < |s[t]| ==> |s[t][z]| == nSens)
  }

  /** The tables the method Marginal fills conserve mass: at every time sample
      the buckets of probs[t] add up to the total probability of the truncated
      space, and the buckets of each sensitivity column to its total. */
  lemma MarginalTablesMass(cr: nat, dim: nat, probs: seq<seq<real>>, s: seq<seq<seq<real>>>, ind: nat, nSens: nat, t: nat, j: nat)
    requires dim >= 1 && ind < dim
    requires SolutionShape(probs, s, NStates(cr, dim), nSens) && t < |probs| && j < nSens
    ensures Sum(Marginalization.Marginal(probs[t], States(cr, dim), ind, cr + 1)) == Sum(probs[t])
    ensures Sum(Marginalization.Marginal(SensitivityColumn(s[t], j), States(cr, dim), ind, cr + 1))
         == Sum(SensitivityColumn(s[t], j))
  {
    var states := States(cr, dim);
    StatesBounded(cr, dim);
    MarginalMass(probs[t], states, ind, cr + 1);
    MarginalMass(SensitivityColumn(s[t], j), states, ind, cr + 1);
  }

  /** After the first z states, mp and ms hold the buckets of every time sample. */
  ghost predicate FoldedUpTo(mp: array2<real>, ms: array3<real>, probs: seq<seq<real>>, s: seq<seq<seq<real>>>,
                             states: seq<seq<nat>>, ind: nat, z: nat)
    requires z <= |states| && Indexable(states, ind)
    requires SolutionShape(probs, s, |states|, ms.Length2) && mp.Length0 == ms.Length0 == |probs|
    reads mp, ms
  {
    && (forall t, k :: 0 <= t < mp.Length0 && 0 <= k < mp.Length1 ==>
          mp[t, k] == Bucket(probs[t], states, ind, k, z))
    && (forall t, k, j :: 0 <= t < ms.Length0 && 0 <= k < ms.Length1 && 0 <= j < ms.Length2 ==>
          ms[t, k, j] == Bucket(SensitivityColumn(s[t], j), states, ind, k, z))
  }

  /** Folding state z, whose count of species ind is x, into the buckets. */
  method FoldState(mp: array2<real>, ms: array3<real>, probs: seq<seq<real>>, s: seq<seq<seq<real>>>,
                   ghost states: seq<seq<nat>>, ind: nat, z: nat, x: nat)
    requires z < |states| && Indexable(states, ind) && x == states[z][ind]
    requires SolutionShape(probs, s, |states|, ms.Length2)
    requires mp.Length0 == ms.Length0 == |probs| && mp.Length1 == ms.Length1 && x < mp.Length1
    requires FoldedUpTo(mp, ms, probs, s, states, ind, z)
    modifies mp, ms
    ensures FoldedUpTo(mp, ms, probs, s, states, ind, z + 1)
  {
    AddState(mp, ms, probs, s, z, x);
    forall t, k | 0 <= t < mp.Length0 && 0 <= k < mp.Length1
      ensures mp[t, k] == Bucket(probs[t], states, ind, k, z + 1)
    {
    }
    forall t, k, j | 0 <= t < ms.Length0 && 0 <= k < ms.Length1 && 0 <= j < ms.Length2
      ensures ms[t, k, j] == Bucket(SensitivityColumn(s[t], j), states, ind, k, z + 1)
    {
      assert SensitivityColumn(s[t], j)[z] == s[t][z][j];
    }
  }

  /** mp and ms hold, for every time sample t, the marginal of probs[t] and of
      each sensitivity column of s[t] for species ind over counts 0..width-1. */
  ghost predicate HoldsMarginals(mp: array2<real>, ms: array3<real>, probs: seq<seq<real>>, s: seq<seq<seq<real>>>,
                                 states: seq<seq<nat>>, ind: nat, width: nat, nSens: nat)
    reads mp, ms
  {
    && SolutionShape(probs, s, |states|, nSens) && Indexable(states, ind)
    && mp.Length0 == |probs| && mp.Length1 == width
    && ms.Length0 == |probs| && ms.Length1 == width && ms.Length2 == nSens
    && (forall t, k :: 0 <= t < |probs| && 0 <= k < width ==>
          mp[t, k] == Marginalization.Marginal(probs[t], states, ind, width)[k])
    && (forall t, k, j :: 0 <= t < |probs| && 0 <= k < width && 0 <= j < nSens ==>
          ms[t, k, j] == Marginalization.Marginal(SensitivityColumn(s[t], j), states, ind, width)[k])
  }

  /** Once every state is folded in, the buckets are the marginals. */
  lemma FoldedAll(mp: array2<real>, ms: array3<real>, probs: seq<seq<real>>, s: seq<seq<seq<real>>>,
                  states: seq<seq<nat>>, ind: nat, width: nat, nSens: nat)
    requires Indexable(states, ind) && SolutionShape(probs, s, |states|, nSens)
    requires mp.Length0 == ms.Length0 == |probs| && mp.Length1 == ms.Length1 == width && ms.Length2 == nSens
    requires FoldedUpTo(mp, ms, probs, s, states, ind, |states|)
    ensures HoldsMarginals(mp, ms, probs, s, states, ind, width, nSens)
  {
  }

  class SensitivitiesDerivation {
    const cr: nat
    const crn: Crn
    const nParams: nat
    const nReactions: nat
    const nSpecies: nat
    const bijection: StateSpaceEnumeration
    const nStates: nat

    /** The counts are those of crn, and the enumeration is complete: every z
        below n_states maps to Φ^{-1}(z). */
    ghost predicate Valid()
      reads this, bijection
    {
      && WellFormed(crn)
      && nParams == crn.nParams && nReactions == crn.nReactions && nSpecies == crn.nSpecies
      && bijection.Valid() && bijection.dim == nSpecies
      && bijection.bijection == Bijection(cr, nSpecies)
      && nStates == NStates(cr, nSpecies)
    }

    constructor (crn: Crn, cr: nat := 4)
      requires WellFormed(crn)
      ensures Valid()
      ensures this.crn == crn && this.cr == cr
      ensures nStates == NStates(cr, crn.nSpecies)
    {
      this.cr := cr;
      this.crn := crn;
      nParams := crn.nParams;
      nReactions := crn.nReactions;
      nSpecies := crn.nSpecies;
      var e := new StateSpaceEnumeration(cr, crn.nSpecies);
      e.CreateBijection();
      EnumerationSize(crn.nSpecies, e.nStates);
      bijection := e;
      nStates := |e.bijection.Values|;
    }

    /** B_index as a dense array: the rate of reaction index at every state
        goes to the row of its destination when that destination is kept, and
        the diagonal holds minus the rate. */
    method CreateB(index: nat) returns (B: array2<real>)
      requires Valid() && index < nReactions
      ensures fresh(B)
      ensures B.Length0 == nStates && B.Length1 == nStates
      ensures forall r, c :: 0 <= r < nStates && 0 <= c < nStates ==> B[r, c] == BMatrix(crn, cr, index)[r][c]
    {
      var e := bijection.bijection;
      var n := nStates;
      EnumerationInjective(nSpecies, n);
      var d := Inverse(e);
      var entries := seq(n, z requires 0 <= z < n => e[z]);
      var outputs := Outputs(entries, crn.stoich[index]);
      var data := Propensities(crn.propensities[index], Ones(nParams), entries);
      var rows := Lookup(d, entries);
      var columns := Lookup(d, outputs);
      var diags := NegatedRowSums(data, rows, n);
      TriplesOfB(crn, cr, index, entries, d, data, rows, columns, diags);
      B := Assemble(n, data, rows, columns, diags);
    }

    /** Marginal probabilities and sensitivities of species indSpecies, from the
        probability table probs (time by state) and the sensitivity table s
        (time by state by parameter) that the ODE solver returns. */
    method Marginal(indSpecies: nat, probs: seq<seq<real>>, s: seq<seq<seq<real>>>, params: seq<real>)
      returns (marginalProbs: array2<real>, marginalSensitivities: array3<real>)
      requires Valid() && indSpecies < nSpecies
      requires SolutionShape(probs, s, nStates, |params|)
      ensures fresh(marginalProbs) && fresh(marginalSensitivities)
      ensures HoldsMarginals(marginalProbs, marginalSensitivities, probs, s, States(cr, nSpecies), indSpecies, cr + 1, |params|)
    {
      var width, nt, m := cr + 1, |probs|, |params|;
      ghost var states := States(cr, nSpecies);
      StatesBounded(cr, nSpecies);
      marginalProbs := new real[nt, width]((_, _) => 0.0);
      marginalSensitivities := new real[nt, width, m]((_, _, _) => 0.0);
      for z := 0 to nStates
        invariant FoldedUpTo(marginalProbs, marginalSensitivities, probs, s, states, indSpecies, z)
      {
        var state := bijection.bijection[z];
        assert state == states[z];
        FoldState(marginalProbs, marginalSensitivities, probs, s, states, indSpecies, z, state[indSpecies]);
      }
      FoldedAll(marginalProbs, marginalSensitivities, probs, s, states, indSpecies, width, m);
    }

    /** The marginals of several species, keyed by species index. */
    method Marginals(indSpecies: seq<nat>, probs: seq<seq<real>>, s: seq<seq<seq<real>>>, params: seq<real>)
      returns (marginalProbs: map<nat, array2<real>>, marginalStv: map<nat, array3<real>>)
      requires Valid()
      requires forall i :: 0 <= i < |indSpecies| ==> indSpecies[i] < nSpecies
      requires SolutionShape(probs, s, nStates, |params|)
      ensures marginalProbs.Keys == marginalStv.Keys == set i | 0 <= i < |indSpecies| :: indSpecies[i]
      ensures forall ind :: ind in marginalProbs ==> fresh(marginalProbs[ind]) && fresh(marginalStv[ind])
      ensures forall ind :: ind in marginalProbs ==>
        HoldsMarginals(marginalProbs[ind], marginalStv[ind], probs, s, States(cr, nSpecies), ind, cr + 1, |params|)
    {
      marginalProbs, marginalStv := map[], map[];
      for i := 0 to |indSpecies|
        invariant marginalProbs.Keys == marginalStv.Keys == set i' | 0 <= i' < i :: indSpecies[i']
        invariant forall ind :: ind in marginalProbs ==> fresh(marginalProbs[ind]) && fresh(marginalStv[ind])
        invariant forall ind :: ind in marginalProbs ==>
          HoldsMarginals(marginalProbs[ind], marginalStv[ind], probs, s, States(cr, nSpecies), ind, cr + 1, |params|)
      {
        var ind := indSpecies[i];
        var mp, ms := Marginal(ind, probs, s, params);
        marginalProbs, marginalStv := marginalProbs[ind := mp], marginalStv[ind := ms];
      }
    }
  }
}
